=== FILE: README.md ===
# CARButton — a Dafny model of the button event state machine

CARButton is an Arduino library for a single push button. A sketch calls the
object's `loop()` on every pass of its main loop. Each call reads the pin once
and compares two elapsed-millisecond timers against four thresholds. The
first is the object's own debounce time (`_debounceTimeMs`), which the
constructor takes from its argument, `DEBOUNCE_MS` (50) by default, and which
`setDebounceTime` changes. The other three are build-wide: `LONGCLICK_MS`
(250), `LONGCLICK_REPEAT_MS` (250) and `MULTICLICK_MS` (300). It then reports
at most one event to the registered callback: PRESSED, RELEASED,
CLICK_FINISH, LONG_FIRST, LONG_REPEAT or LONG_FINISH.

This project models that state machine as pure functions over an immutable
record, and proves properties about it.

- `button_defs.dfy` (module `ButtonDefs`) models `CARButton.h`:
  - the `byte` type and the HIGH/LOW levels;
  - the thresholds, with the `#ifndef` override rule;
  - the event codes;
  - the pin modes and the constructor's default arguments.
- `button.dfy` (module `CarButton`) models `CARButton.cpp`. It covers the object's fields, the constructor, the setters, the getters, `reset()` and `loop()`.
  - `Loop` is the body of `loop()`.
  - `Step` first advances both timers by the milliseconds since the previous poll, then runs `Loop`.
  - `loop()` does not call the callback here. It returns the list of calls it would make (`Notice`). Each call records the event code, plus what `getNumberOfClicks()` and `wasPressedFor()` would return if the callback asked at that moment.
  - Each branch of `loop()` has a lemma that says exactly when its event fires.
- `traces.dfy` (module `ButtonTraces`) runs `loop()` over finite sequences of
  polls. It proves the gestures the library recognises:
  - a single click;
  - a double click;
  - a long click with repeats;
  - a bounce, and the bounce that swallows a CLICK_FINISH;
  - the invariant over any sequence of operations after construction.
- `wrappers.dfy` (module `Wrappers`) holds `Option` and `Result`.

## Behaviour as coded

The model follows the code where it differs from the library's comments:

- **Member names.** The header declares `pin`, `prev_state`,
  `click_count`, …, but the `.cpp` uses `_inputPin`, `_previousState`,
  `_clickCount`, …. The model names each field once and maps the two sets of
  names onto it.
- **The release event code.** `loop()` emits `BUTTON_CLICK_RELEASED`, which the
  header never defines. The header defines `BUTTON_RELEASED` as 1, and the model
  treats that call as RELEASED with code 1.
- **Click counts above 1.** A second press inside the multi-click window
  restarts the press episode. PRESSED fires again and the count reaches 2
  (`DoubleClick`). Because of the `_clickCount == 1` guards, such a press never
  becomes a long click, however long it is held.
- **RELEASED is not always followed by CLICK_FINISH.** A bounce shorter than the
  debounce time inside the window clears the confirmation flag and emits
  nothing. CLICK_FINISH then never fires and one click stays counted
  (`BounceSwallowsClickFinish`).
- **Callback timing.** The callback for LONG_FINISH and for CLICK_FINISH runs
  before the flags and the count are cleared. So inside the callback,
  `getNumberOfClicks()` still returns the episode's click count. The notices
  record it.
- **The multi-click window is counted from the press edge.** CLICK_FINISH
  compares the press timer, which restarts at the press edge, not at the
  release. A press held to the multi-click time or longer still emits RELEASED
  on its release poll, and CLICK_FINISH then fires on the very next released
  poll, so no window for a second click follows it (`LateReleaseClick`).
- **A debounce time of 0.** The edge poll is still silent, and the first held
  poll after it confirms (`ZeroDebounceClick`).
- **The click count is a byte.** The 256th confirmed press of one episode wraps
  the count to 0 (`ClickCountWraps`). "A confirmed press has counted a click"
  therefore holds only below 255 (`TriggeredHasClick`).
- **The invariant needs strengthening.** The CLICK_FINISH branch clears the count
  but not the long-click flag. So "a long click implies a confirmed first click"
  is preserved only together with "a long click implies the button reads as
  pressed" (`Inv`, `LongclickConsistentNotInductive`).
- **No callback registered.** The constructor leaves the callback NULL,
  `reset()` sets it back to NULL, `setButtonHandler(NULL)` stores NULL like any
  other pointer, and `loop()` calls it without a check. `Poll`
  reports such a call as the fault `NullCallback`, not as a success, and a run
  of polls through `Poll` (`PollRun`) stops at the first such call. Each
  gesture lemma states both outcomes: with a callback registered the run
  completes with the listed calls; without one it faults (`ClickNeedsHandler`).

## Model

| member | source | states |
|---|---|---|
| ButtonDefs.Resolve | CARButton.h:20-31 | each threshold is the build's predefined value if there is one, else the library default |
| ButtonDefs.DefaultThresholds | CARButton.h:20-31 | a build that predefines nothing gets 50, 250, 250 and 300 ms |
| ButtonDefs.CodeRoundTrip | CARButton.h:33-38 | decoding an event code gives back the event, and a code decodes to an event only if that event encodes to it |
| ButtonDefs.CodesDistinct | CARButton.h:33-38 | the six codes are pairwise distinct and cover exactly 0..5 |
| ButtonDefs.DefaultDebounceArg | CARButton.h:61 | the default debounce argument is `DEBOUNCE_MS` narrowed to a byte: equal to it below 256, congruent to it mod 256 otherwise |
| CarButton.Construct | CARButton.cpp:12-19 | the pressed level is LOW iff active low; both samples start at the other level; debounce and pin are stored; count, duration and flags start cleared; no callback; the pin is configured with the given mode |
| CarButton.ConstructDefault | CARButton.h:61 | default arguments: INPUT_PULLUP, active low, and the build's `DEBOUNCE_MS` |
| CarButton.ConstructedIsIdle | CARButton.cpp:33-47 | a new button reads as not pressed, with 0 clicks and 0 ms pressed |
| CarButton.SetDebounceTime | CARButton.cpp:25-27 | only the debounce time changes, and it becomes the given byte |
| CarButton.SetButtonHandler | CARButton.cpp:29-31 | the single callback slot holds the argument as given, NULL (`None`) included; nothing else changes |
| CarButton.Reset | CARButton.cpp:106-113 | both timers, both flags, the count and the callback are cleared; pin, polarity, samples, debounce time and last duration survive |
| CarButton.ResetIdempotent | CARButton.cpp:106-113 | resetting twice equals resetting once; a reset button reports no clicks and keeps its pressed reading |
| CarButton.ResetThenReleasedPoll | CARButton.cpp:106-113 | after a reset, a poll with the line released emits nothing, so it never reaches the cleared callback, and it reads as not pressed with 0 clicks |
| CarButton.InvConstructed | CARButton.cpp:12-19 | the invariant holds for every constructed button |
| CarButton.InvAfterReset | CARButton.cpp:106-113 | the invariant holds after `reset()`, whatever the state before it |
| CarButton.Loop | CARButton.cpp:49-104 | at most one callback call per poll; configuration unchanged; the samples shift; the invariant is preserved |
| CarButton.Elapse | CARButton.h:49-50 | between two polls both elapsed-millisecond timers advance by the time that passed; no other field changes |
| CarButton.StepTimers | CARButton.cpp:49-104 | one poll: each timer advances by the time since the previous poll or restarts at 0; the press timer restarts exactly on a press edge, the long-click timer only there or with LONG_FIRST / LONG_REPEAT; the samples shift, the configuration is kept, at most one call |
| CarButton.GettersTrackEvents | CARButton.cpp:33-47 | after a poll `isPressed` is that poll's sample; the click count changes only with PRESSED (one more, mod 256) or LONG_FINISH / CLICK_FINISH (to 0); the press duration changes only with LONG_FIRST, LONG_REPEAT, RELEASED or LONG_FINISH, and then to the press timer |
| ButtonTraces.PollRunMatchesRun | CARButton.cpp:61-101 | a run of polls completes, with the calls `Run` records, exactly when a callback is registered or no poll calls it; otherwise the first call through NULL faults |
| ButtonTraces.ZeroDebounceClick | CARButton.cpp:55-65 | with a debounce time of 0, an edge, one held poll, a release and a late released poll give exactly PRESSED(1), RELEASED(1, 20), CLICK_FINISH(1, 20) |
| ButtonTraces.LateReleaseClick | CARButton.cpp:83-101 | with the default thresholds, a press released 310 ms after its edge gives PRESSED, RELEASED(310), and CLICK_FINISH on the next released poll |
| ButtonTraces.ClickNeedsHandler | CARButton.h:58 | a click on a freshly constructed button faults, since no callback is registered; after `setButtonHandler(f)` the same click completes exactly when `f` is not NULL |
| CarButton.PressEdge | CARButton.cpp:55-59 | a fresh press edge emits nothing, restarts both timers, clears both flags and keeps the count |
| CarButton.PressedFiresWhen | CARButton.cpp:61-65 | PRESSED fires iff the level is held, unconfirmed and past the debounce time; it confirms and adds one click (mod 256), which the callback sees |
| CarButton.LongFirstFiresWhen | CARButton.cpp:68-73 | LONG_FIRST fires iff a confirmed first click is held past the long-click time and not yet detected; it records the duration and restarts the repeat timer |
| CarButton.LongRepeatFiresWhen | CARButton.cpp:74-78 | LONG_REPEAT fires iff a detected long click is held past the repeat time; it records the duration and restarts the repeat timer |
| CarButton.LongFinishFiresWhen | CARButton.cpp:83-92 | LONG_FINISH fires iff a detected long click is released; the button returns to idle and the callback sees 1 click |
| CarButton.ReleasedFiresWhen | CARButton.cpp:83-96 | RELEASED fires iff a confirmed press that is not a long click is released; confirmation and count are kept and the duration is recorded |
| CarButton.ClickFinishFiresWhen | CARButton.cpp:97-101 | CLICK_FINISH fires iff the button is released, was already released at the previous poll, and the multi-click time has passed since the last press edge, with clicks pending; the callback sees the count, which is then cleared |
| CarButton.IdleLoopOnlyShifts | CARButton.cpp:49-81 | released and unconfirmed, a poll emits nothing and only the two samples change |
| CarButton.PolarityActiveHigh | CARButton.cpp:33-35 | with active-high polarity, HIGH reads as pressed after one poll, whatever the debounce time |
| CarButton.TriggeredHasClick | CARButton.cpp:61-63 | a confirmed press has a count of at least 1, preserved by every poll while the count is below 255 |
| CarButton.ClickCountWraps | CARButton.h:48 | at count 255 a confirmation wraps the byte count to 0 while the press is confirmed |
| CarButton.LongclickConsistentNotInductive | CARButton.cpp:97-101 | the long-click property alone is not preserved, because CLICK_FINISH leaves the long-click flag set |
| ButtonTraces.QuietHoldRun | CARButton.cpp:49-104 | polls that cross no threshold emit nothing and only advance the timers |
| ButtonTraces.ReleasedUnconfirmedQuiet | CARButton.cpp:81 | released and unconfirmed, no poll crosses a threshold, however long |
| ButtonTraces.DebouncingQuiet | CARButton.cpp:61 | a held, unconfirmed press stays quiet below the debounce time |
| ButtonTraces.HeldBelowLongQuiet | CARButton.cpp:68-69 | a confirmed first click stays quiet below the long-click time |
| ButtonTraces.MultiHeldQuiet | CARButton.cpp:68 | a confirmed click other than the first stays quiet however long it is held |
| ButtonTraces.ClickWindowQuiet | CARButton.cpp:97 | released after a confirmed press, the button stays quiet inside the multi-click window |
| ButtonTraces.LongHoldRepeats | CARButton.cpp:74-78 | holding a detected long click emits only LONG_REPEAT and keeps the long click alive |
| ButtonTraces.RepeatCadence | CARButton.cpp:74-77 | repeats times the repeat time, plus the final repeat timer, is at most the held time; a hold with no LONG_REPEAT leaves the repeat timer running for the whole hold; at the end the timer is below the repeat time or just restarted, so no repeat is overdue |
| ButtonTraces.SettlePhase | CARButton.cpp:55-61 | an edge followed by polls below the debounce time (none when the debounce time is 0) is silent and restarts the press episode |
| ButtonTraces.ConfirmPhase | CARButton.cpp:61-69 | the confirming poll, the first to reach the debounce time (any held poll when it is 0), and the held polls after it emit exactly one PRESSED |
| ButtonTraces.PressedOncePerEpisode | CARButton.cpp:61-68 | once a press is confirmed, holding it never emits PRESSED again and it stays confirmed |
| ButtonTraces.PressPhase | CARButton.cpp:55-69 | from any released state, a debounced press emits exactly one PRESSED and counts one more click; a first click may be confirmed at or after the long-click time as long as it is not held after confirmation |
| ButtonTraces.ReleasePhase | CARButton.cpp:83-97 | releasing a non-long press emits RELEASED with the duration whatever the timer, then stays quiet while the press timer is below the multi-click time |
| ButtonTraces.FinishPhase | CARButton.cpp:97-101 | past the multi-click time, CLICK_FINISH reports the pending clicks and the button is idle, with nothing after |
| ButtonTraces.ClickPhase | CARButton.cpp:55-97 | a press, then a release whose later released polls stay inside the window, emit PRESSED and RELEASED with the new count and leave the click pending; the release poll itself may come after the window |
| ButtonTraces.SingleClick | CARButton.cpp:49-104 | press past debounce, not held to the long-click time after confirmation, released, and polled released until the multi-click time since the press edge has passed: exactly PRESSED, RELEASED, CLICK_FINISH with 1 click, then idle; with a callback registered the run completes, without one it faults |
| ButtonTraces.DoubleClick | CARButton.cpp:55-101 | two clicks inside the window: PRESSED(1), RELEASED(1), PRESSED(2), RELEASED(2), CLICK_FINISH(2); the second press is never a long click; with a callback registered the run completes, without one it faults |
| ButtonTraces.Bounce | CARButton.cpp:55-61 | a press released before the debounce time (or, at debounce 0, on the poll after its edge) emits nothing, from any released state; it clears confirmation and keeps the count |
| ButtonTraces.BounceSwallowsClickFinish | CARButton.cpp:55-101 | a bounce inside the window after a click: only PRESSED and RELEASED, and one click stays pending for ever; with a callback registered the run completes, without one it faults |
| ButtonTraces.IdleStaysIdle | CARButton.cpp:81 | a line that never reaches the pressed level emits nothing and reports 0 clicks throughout; the run completes even with no callback registered |
| ButtonTraces.LongPhase | CARButton.cpp:68-78 | reaching the long-click time emits LONG_FIRST with the duration, followed only by LONG_REPEAT, and by at least one once the hold after LONG_FIRST lasts the repeat time |
| ButtonTraces.LongEndPhase | CARButton.cpp:83-92 | releasing a long click emits only LONG_FINISH with the whole duration, then idle |
| ButtonTraces.LongTail | CARButton.cpp:68-92 | from a confirmed first click: LONG_FIRST, only LONG_REPEATs (at least one once the hold lasts the repeat time), LONG_FINISH with the whole duration; no RELEASED or CLICK_FINISH; then idle |
| ButtonTraces.LongClick | CARButton.cpp:49-104 | a long press, also with a debounce time at or past the long-click time: PRESSED, LONG_FIRST, only LONG_REPEATs and at least one once the hold after LONG_FIRST lasts the repeat time, then LONG_FINISH; never RELEASED or CLICK_FINISH; then idle; with a callback registered the run completes, without one it faults |
| ButtonTraces.RunPreservesInv | CARButton.cpp:49-104 | the invariant, and so the long-click property, holds after any sequence of polls |
| ButtonTraces.AtMostOneCallPerPoll | CARButton.cpp:49-104 | a run makes no more callback calls than it has polls |
| ButtonTraces.LongclickAlwaysConsistent | CARButton.cpp:12-113 | after construction and any mix of polls, resets and setter calls, a detected long click belongs to a confirmed first click |

## Left out

- Pin I/O: `pinMode` and `digitalRead` are hardware calls. The constructor returns the `pinMode` request as data, and each poll takes its pin sample as a parameter. `isPressedRaw` reads the pin directly and adds nothing beyond that comparison, so it is not modelled.
- The clock: the `elapsedMillis` class and `millis()` are outside this model. The two timers are unbounded counters that each poll advances by its `dt` parameter. That parameter is the milliseconds since the latest of three moments: the previous poll, the last `reset()`, and, for the first poll, the construction of the object. The timers start at 0 when the object is built and `reset()` zeroes them again, so they count from those moments.
- 32-bit wrap-around of the millisecond clock is not modelled, because the timers are unbounded counters.
- One clock reading per poll: each `elapsedMillis` read in `loop()` calls `millis()` afresh, so the duration stored at CARButton.cpp:70, 75 or 84 can exceed the value compared just before it by the time the poll itself takes. The model reads the clock once per poll. The exact `timePressedMs` in `LongFirstFiresWhen`, `LongRepeatFiresWhen`, `ReleasedFiresWhen` and the gesture lemmas rests on that single reading.
- CarButton.WasPressedFor: returns an unbounded duration. The source stores it in an `unsigned int` (16 bits on AVR), and that truncation is platform dependent, so it is not modelled.
- The callback: invocation through a function pointer becomes the returned list of notices. A callback that re-enters the object during `loop()` is not modelled, because it is arbitrary code. Examples are a callback that calls `reset()` or `setDebounceTime()`, whose effects the remaining statements of `loop()` could then overwrite.
- `operator==` compares object addresses, which mean nothing in a value model.
- Concurrency: none exists; the object is driven by one polling loop.

=== FILE: button.dfy ===
/** One button object and its operations: construction, the configuration
    setters, the getters, `reset()` and the polled `loop()` state machine.

    Time enters through the two elapsed-millisecond counters. They are kept as
    plain counters: a poll first advances both by the milliseconds `dt` that
    passed since the latest of the previous poll, the last `reset()` and, for
    the first poll, the construction of the object (`Elapse`); an assignment
    `= 0` in the source sets a counter back to 0. The counters start at 0 when
    the object is built and `reset()` zeroes them again, so the source's timers
    count from those moments, not from an earlier poll.

    Instead of invoking the callback, `loop()` returns the list of invocations
    it makes, each with the values the callback would read back through the
    getters at that moment. */
module CarButton {
  import opened Wrappers
  import opened ButtonDefs

  /** Identity of a registered callback function. */
  type Callback = nat

  /** The object's fields. */
  datatype Button = Button(
    pin: byte,
    pressedLevel: Level,
    prevLevel: Level,
    currLevel: Level,
    clickCount: byte,
    sincePressed: nat,
    sinceLongclick: nat,
    timePressedMs: nat,
    debounceMs: byte,
    pressedTriggered: bool,
    longclickDetected: bool,
    callback: Option<Callback>)

  /** One callback invocation: the event code, and what `getNumberOfClicks()`
      and `wasPressedFor()` return if the callback asks at that moment. */
  datatype Notice = Notice(event: Event, clicks: byte, pressedForMs: nat)

  /** What one `loop()` call leaves behind: the new fields and the callback
      invocations it made, in order. */
  datatype Polled = Polled(next: Button, calls: seq<Notice>)

  /** The `pinMode` call the constructor issues. */
  datatype PinSetup = PinSetup(pin: byte, mode: PinMode)

  datatype Constructed = Constructed(button: Button, setup: PinSetup)

  /** Calling the callback while none is registered: a call through NULL. */
  datatype Fault = NullCallback

  function ReleasedLevel(activeLow: bool): Level
  {
    if activeLow then HIGH else LOW
  }

  /** The constructor. */
  function Construct(pin: byte, mode: PinMode, activeLow: bool, debounceMs: byte): (r: Constructed)
    ensures r.button.pressedLevel == LOW <==> activeLow
    ensures r.button.prevLevel != r.button.pressedLevel
    ensures r.button.currLevel != r.button.pressedLevel
    ensures r.button.pin == pin && r.button.debounceMs == debounceMs
    ensures r.button.clickCount == 0 && r.button.timePressedMs == 0
    ensures !r.button.pressedTriggered && !r.button.longclickDetected
    ensures r.button.callback == None
    ensures r.setup == PinSetup(pin, mode)
  {
    var idle := ReleasedLevel(activeLow);
    Constructed(
      Button(pin, !idle, idle, idle, 0, 0, 0, 0, debounceMs, false, false, None),
      PinSetup(pin, mode))
  }

  /** The constructor with its default arguments: `INPUT_PULLUP`, active low,
      and the build's `DEBOUNCE_MS` as the debounce time. */
  function ConstructDefault(pin: byte, t: Thresholds): (r: Constructed)
    ensures r.setup.mode == InputPullup
    ensures r.button.pressedLevel == LOW
    ensures t.debounceMs < 256 ==> r.button.debounceMs == t.debounceMs
    ensures r == Construct(pin, InputPullup, true, DefaultDebounceArg(t))
  {
    Construct(pin, InputPullup, true, DefaultDebounceArg(t))
  }

  /** `setDebounceTime`: only the debounce time changes. */
  function SetDebounceTime(b: Button, ms: byte): (r: Button)
    ensures r.debounceMs == ms
    ensures r.(debounceMs := b.debounceMs) == b
  {
    b.(debounceMs := ms)
  }

  /** `setButtonHandler`: a single slot, the last registration wins. The
      argument is stored as given, so registering NULL (`None`) leaves the
      button without a callback again. */
  function SetButtonHandler(b: Button, f: Option<Callback>): (r: Button)
    ensures r.callback == f
    ensures r.(callback := b.callback) == b
  {
    b.(callback := f)
  }

  /** `isPressed`: the sample taken by the most recent poll, not a fresh read. */
  function IsPressed(b: Button): bool
  {
    b.currLevel == b.pressedLevel
  }

  /** `getNumberOfClicks`. */
  function NumberOfClicks(b: Button): byte
  {
    b.clickCount
  }

  /** `wasPressedFor`. */
  function WasPressedFor(b: Button): nat
  {
    b.timePressedMs
  }

  /** A freshly constructed button does not read as pressed and reports no
      clicks and no press duration. */
  lemma ConstructedIsIdle(pin: byte, mode: PinMode, activeLow: bool, debounceMs: byte)
    ensures !IsPressed(Construct(pin, mode, activeLow, debounceMs).button)
    ensures NumberOfClicks(Construct(pin, mode, activeLow, debounceMs).button) == 0
    ensures WasPressedFor(Construct(pin, mode, activeLow, debounceMs).button) == 0
  {
  }

  /** `reset`: clears both timers, both flags, the click count and the callback,
      and keeps the pin, the polarity, the samples, the debounce time and the
      last press duration. */
  function Reset(b: Button): (r: Button)
    ensures r.sincePressed == 0 && r.sinceLongclick == 0
    ensures !r.pressedTriggered && !r.longclickDetected
    ensures r.clickCount == 0 && r.callback == None
    ensures r.pin == b.pin && r.pressedLevel == b.pressedLevel
    ensures r.prevLevel == b.prevLevel && r.currLevel == b.currLevel
    ensures r.debounceMs == b.debounceMs && r.timePressedMs == b.timePressedMs
  {
    b.(sincePressed := 0, sinceLongclick := 0, pressedTriggered := false,
       longclickDetected := false, clickCount := 0, callback := None)
  }

  /** Resetting twice is resetting once, and a reset button reports no clicks. */
  lemma ResetIdempotent(b: Button)
    ensures Reset(Reset(b)) == Reset(b)
    ensures NumberOfClicks(Reset(b)) == 0
    ensures IsPressed(Reset(b)) == IsPressed(b)
  {
  }

  /** The callback invocation for `e`, as seen from inside the callback. */
  function Notify(b: Button, e: Event): Notice
  {
    Notice(e, b.clickCount, b.timePressedMs)
  }

  /** The configuration a poll never changes. */
  predicate SameConfig(b: Button, b': Button)
  {
    && b'.pin == b.pin
    && b'.pressedLevel == b.pressedLevel
    && b'.debounceMs == b.debounceMs
    && b'.callback == b.callback
  }

  /** The property the library relies on: a long click is only ever detected
      on the first confirmed press of an episode. */
  predicate LongclickConsistent(b: Button)
  {
    b.longclickDetected ==> b.pressedTriggered && b.clickCount == 1
  }

  /** `LongclickConsistent` strengthened so that it is preserved by every poll:
      a detected long click also means the button still reads as pressed. */
  predicate Inv(b: Button)
  {
    && LongclickConsistent(b)
    && (b.longclickDetected ==> IsPressed(b))
  }

  /** The body of `loop()` after the clock has advanced: shift the samples,
      then classify. */
  function Loop(b: Button, level: Level, t: Thresholds): (r: Polled)
    ensures |r.calls| <= 1
    ensures SameConfig(b, r.next)
    ensures r.next.prevLevel == b.currLevel && r.next.currLevel == level
    ensures Inv(b) ==> Inv(r.next)
  {
    var s := b.(prevLevel := b.currLevel, currLevel := level);
    if s.currLevel == s.pressedLevel then
      if s.prevLevel != s.pressedLevel then
        Polled(s.(sincePressed := 0, sinceLongclick := 0,
                  pressedTriggered := false, longclickDetected := false), [])
      else if !s.pressedTriggered && s.sincePressed >= s.debounceMs then
        var p := s.(pressedTriggered := true, clickCount := (s.clickCount + 1) % 256);
        Polled(p, [Notify(p, Pressed)])
      else if s.pressedTriggered && s.clickCount == 1 then
        if !s.longclickDetected && s.sincePressed >= t.longclickMs then
          var p := s.(timePressedMs := s.sincePressed, longclickDetected := true, sinceLongclick := 0);
          Polled(p, [Notify(p, LongFirst)])
        else if s.longclickDetected && s.sinceLongclick >= t.longclickRepeatMs then
          var p := s.(timePressedMs := s.sincePressed, sinceLongclick := 0);
          Polled(p, [Notify(p, LongRepeat)])
        else
          Polled(s, [])
      else
        Polled(s, [])
    else if s.pressedTriggered then
      if s.prevLevel == s.pressedLevel then
        var p := s.(timePressedMs := s.sincePressed);
        if p.clickCount == 1 && p.longclickDetected then
          // the callback runs before the flags are cleared
          Polled(p.(longclickDetected := false, pressedTriggered := false, clickCount := 0),
                 [Notify(p, LongFinish)])
        else
          Polled(p, [Notify(p, Released)])
      else if s.clickCount > 0 && s.sincePressed >= t.multiclickMs then
        // the callback runs before the count is cleared
        Polled(s.(pressedTriggered := false, clickCount := 0), [Notify(s, ClickFinish)])
      else
        Polled(s, [])
    else
      Polled(s, [])
  }

  /** The clock advancing by `dt` milliseconds between two polls. */
  function Elapse(b: Button, dt: nat): (r: Button)
    ensures r.sincePressed == b.sincePressed + dt
    ensures r.sinceLongclick == b.sinceLongclick + dt
    ensures r.(sincePressed := b.sincePressed, sinceLongclick := b.sinceLongclick) == b
  {
    b.(sincePressed := b.sincePressed + dt, sinceLongclick := b.sinceLongclick + dt)
  }

  /** One `loop()` call made `dt` milliseconds after the previous one (or after
      the last `reset()`, if that came later, or after construction for the
      first call), with `level` as the pin sample. */
  function Step(b: Button, level: Level, dt: nat, t: Thresholds): Polled
  {
    Loop(Elapse(b, dt), level, t)
  }

  /** `loop()` including the callback call: an invocation while no callback is
      registered (after `reset()`, or before any `setButtonHandler`) is a call
      through a NULL pointer, reported as a fault rather than as a result. */
  function Poll(b: Button, level: Level, dt: nat, t: Thresholds): (r: Result<Polled, Fault>)
    ensures r.Err? <==> b.callback.None? && Step(b, level, dt, t).calls != []
    ensures r.Ok? ==> r.value == Step(b, level, dt, t)
  {
    var p := Step(b, level, dt, t);
    if p.calls != [] && b.callback.None? then Err(NullCallback) else Ok(p)
  }

  /** After `reset()`, a poll with the line released emits nothing, so it does
      not reach the cleared callback, and the button reads as not pressed with
      no clicks. */
  lemma ResetThenReleasedPoll(b: Button, dt: nat, t: Thresholds)
    ensures Poll(Reset(b), !b.pressedLevel, dt, t).Ok?
    ensures Step(Reset(b), !b.pressedLevel, dt, t).calls == []
    ensures !IsPressed(Step(Reset(b), !b.pressedLevel, dt, t).next)
    ensures NumberOfClicks(Step(Reset(b), !b.pressedLevel, dt, t).next) == 0
  {
  }

  /** The event of a poll's callback invocation, if it made one. */
  function Emitted(p: Polled): Option<Event>
  {
    if p.calls == [] then None else Some(p.calls[0].event)
  }

  // ----- The six branches of loop(), each stated as "fires exactly when" -----

  /** A fresh transition into the pressed level emits nothing, restarts both
      timers and clears both flags; the click count is kept. */
  lemma PressEdge(b: Button, level: Level, t: Thresholds)
    requires level == b.pressedLevel && b.currLevel != b.pressedLevel
    ensures var r := Loop(b, level, t);
      r.calls == []
    ensures var r := Loop(b, level, t);
      r.next
        == b.(prevLevel := b.currLevel, currLevel := level, sincePressed := 0,
              sinceLongclick := 0, pressedTriggered := false, longclickDetected := false)
  {
  }

  /** PRESSED fires exactly when the level has been held since the previous
      poll, the press is not yet confirmed and the debounce time has elapsed;
      it confirms the press and counts one more click (a byte, so 255 wraps to 0). */
  lemma PressedFiresWhen(b: Button, level: Level, t: Thresholds)
    ensures var r := Loop(b, level, t);
      Emitted(r) == Some(Pressed) <==>
        && level == b.pressedLevel && b.currLevel == b.pressedLevel
        && !b.pressedTriggered && b.sincePressed >= b.debounceMs
    ensures var r := Loop(b, level, t);
      Emitted(r) == Some(Pressed) ==>
        && r.next.pressedTriggered
        && r.next.clickCount == (b.clickCount + 1) % 256
        && r.calls[0].clicks == r.next.clickCount
        && r.next.longclickDetected == b.longclickDetected
  {
  }

  /** LONG_FIRST fires exactly when a confirmed single press has been held for
      the long-click time and no long click was detected yet; it records the
      press duration and restarts the repeat timer. */
  lemma LongFirstFiresWhen(b: Button, level: Level, t: Thresholds)
    ensures var r := Loop(b, level, t);
      Emitted(r) == Some(LongFirst) <==>
        && level == b.pressedLevel && b.currLevel == b.pressedLevel
        && b.pressedTriggered && b.clickCount == 1
        && !b.longclickDetected && b.sincePressed >= t.longclickMs
    ensures var r := Loop(b, level, t);
      Emitted(r) == Some(LongFirst) ==>
        && r.next.longclickDetected
        && r.next.timePressedMs == b.sincePressed
        && r.next.sinceLongclick == 0
        && r.calls[0].pressedForMs == b.sincePressed
  {
  }

  /** LONG_REPEAT fires exactly when a detected long click is still held and
      the repeat time has passed since the previous long-click event. */
  lemma LongRepeatFiresWhen(b: Button, level: Level, t: Thresholds)
    ensures var r := Loop(b, level, t);
      Emitted(r) == Some(LongRepeat) <==>
        && level == b.pressedLevel && b.currLevel == b.pressedLevel
        && b.pressedTriggered && b.clickCount == 1
        && b.longclickDetected && b.sinceLongclick >= t.longclickRepeatMs
    ensures var r := Loop(b, level, t);
      Emitted(r) == Some(LongRepeat) ==>
        && r.next.longclickDetected
        && r.next.timePressedMs == b.sincePressed
        && r.next.sinceLongclick == 0
  {
  }

  /** LONG_FINISH fires exactly on the release edge of a detected long click;
      it returns the button to idle and no RELEASED is emitted on that edge. */
  lemma LongFinishFiresWhen(b: Button, level: Level, t: Thresholds)
    ensures var r := Loop(b, level, t);
      Emitted(r) == Some(LongFinish) <==>
        && level != b.pressedLevel && b.currLevel == b.pressedLevel
        && b.pressedTriggered && b.clickCount == 1 && b.longclickDetected
    ensures var r := Loop(b, level, t);
      Emitted(r) == Some(LongFinish) ==>
        && !r.next.pressedTriggered
        && !r.next.longclickDetected
        && r.next.clickCount == 0
        && r.next.timePressedMs == b.sincePressed
        && r.calls[0].clicks == 1
  {
  }

  /** RELEASED fires exactly on a release edge of a confirmed press that is not
      the end of a long click; it records the press duration and keeps the
      confirmation flag and the click count for the multi-click window. */
  lemma ReleasedFiresWhen(b: Button, level: Level, t: Thresholds)
    ensures var r := Loop(b, level, t);
      Emitted(r) == Some(Released) <==>
        && level != b.pressedLevel && b.currLevel == b.pressedLevel
        && b.pressedTriggered && !(b.clickCount == 1 && b.longclickDetected)
    ensures var r := Loop(b, level, t);
      Emitted(r) == Some(Released) ==>
        && r.next.pressedTriggered
        && r.next.clickCount == b.clickCount
        && r.next.timePressedMs == b.sincePressed
  {
  }

  /** CLICK_FINISH fires exactly when the button has stayed released past the
      multi-click time (counted from the last press edge) with clicks pending;
      the callback sees the click count, which is then cleared. */
  lemma ClickFinishFiresWhen(b: Button, level: Level, t: Thresholds)
    ensures var r := Loop(b, level, t);
      Emitted(r) == Some(ClickFinish) <==>
        && level != b.pressedLevel && b.currLevel != b.pressedLevel
        && b.pressedTriggered && b.clickCount > 0 && b.sincePressed >= t.multiclickMs
    ensures var r := Loop(b, level, t);
      Emitted(r) == Some(ClickFinish) ==>
        && !r.next.pressedTriggered
        && r.next.clickCount == 0
        && r.calls[0].clicks == b.clickCount
  {
  }

  /** A poll's effect on the two elapsed-millisecond timers: each advances by
      `dt` or restarts at 0. The press timer
      restarts only on a press edge, the long-click timer only there or when a
      long-click event fires. The configuration is untouched and at most one
      callback call is made. */
  lemma StepTimers(b: Button, level: Level, dt: nat, t: Thresholds)
    ensures var r := Step(b, level, dt, t);
      |r.calls| <= 1 && SameConfig(b, r.next)
    ensures var r := Step(b, level, dt, t);
      r.next.prevLevel == b.currLevel && r.next.currLevel == level
    ensures var r := Step(b, level, dt, t);
      r.next.sincePressed == (if level == b.pressedLevel && b.currLevel != b.pressedLevel
                              then 0 else b.sincePressed + dt)
    ensures var r := Step(b, level, dt, t);
      r.next.sinceLongclick != b.sinceLongclick + dt ==>
        && r.next.sinceLongclick == 0
        && ((level == b.pressedLevel && b.currLevel != b.pressedLevel)
            || Emitted(r) == Some(LongFirst) || Emitted(r) == Some(LongRepeat))
  {
  }

  /** What the getters report after a poll: `isPressed` is that poll's sample,
      the click count changes only with PRESSED (one more), LONG_FINISH or
      CLICK_FINISH (back to 0), and the press duration only with an event that
      ends or extends a press. */
  lemma GettersTrackEvents(b: Button, level: Level, dt: nat, t: Thresholds)
    ensures var r := Step(b, level, dt, t);
      IsPressed(r.next) <==> level == b.pressedLevel
    ensures var r := Step(b, level, dt, t);
      NumberOfClicks(r.next) != NumberOfClicks(b) ==>
        || (Emitted(r) == Some(Pressed) && NumberOfClicks(r.next) == (NumberOfClicks(b) + 1) % 256)
        || ((Emitted(r) == Some(LongFinish) || Emitted(r) == Some(ClickFinish))
            && NumberOfClicks(r.next) == 0)
    ensures var r := Step(b, level, dt, t);
      WasPressedFor(r.next) != WasPressedFor(b) ==>
        && WasPressedFor(r.next) == r.next.sincePressed
        && (|| Emitted(r) == Some(LongFirst) || Emitted(r) == Some(LongRepeat)
            || Emitted(r) == Some(Released) || Emitted(r) == Some(LongFinish))
  {
  }

  /** Released and unconfirmed: the poll emits nothing and only the two
      samples move. */
  lemma IdleLoopOnlyShifts(b: Button, level: Level, t: Thresholds)
    requires level != b.pressedLevel && !b.pressedTriggered
    ensures Loop(b, level, t) == Polled(b.(prevLevel := b.currLevel, currLevel := level), [])
  {
  }

  /** With the construction polarity not active low, a sustained HIGH reads as
      pressed after one poll, whatever the debounce time. */
  lemma PolarityActiveHigh(pin: byte, mode: PinMode, debounceMs: byte, dt: nat, t: Thresholds)
    ensures IsPressed(Step(Construct(pin, mode, false, debounceMs).button, HIGH, dt, t).next)
  {
  }

  /** The invariant holds after construction. */
  lemma InvConstructed(pin: byte, mode: PinMode, activeLow: bool, debounceMs: byte)
    ensures Inv(Construct(pin, mode, activeLow, debounceMs).button)
  {
  }

  /** The invariant holds after `reset()`, whatever the state before it. */
  lemma InvAfterReset(b: Button)
    ensures Inv(Reset(b))
  {
  }

  /** A confirmed press has counted its click, as long as the byte count does
      not wrap: preserved by every poll from a count below 255. */
  lemma TriggeredHasClick(b: Button, level: Level, t: Thresholds)
    requires b.pressedTriggered ==> b.clickCount >= 1
    requires b.clickCount < 255
    ensures Loop(b, level, t).next.pressedTriggered ==> Loop(b, level, t).next.clickCount >= 1
  {
  }

  /** The byte count does wrap: the 256th confirmed press of one multi-click
      episode leaves a confirmed press with a count of 0, after which
      CLICK_FINISH can no longer fire for it. */
  lemma ClickCountWraps()
    ensures var b := Button(0, LOW, LOW, LOW, 255, 50, 0, 0, 50, false, false, None);
      var r := Loop(b, LOW, Defaults);
      && r.calls == [Notice(Pressed, 0, 0)]
      && r.next.pressedTriggered && r.next.clickCount == 0
  {
  }

  /** `LongclickConsistent` alone is not preserved by a poll: the CLICK_FINISH
      branch clears the count but not the long-click flag. The stronger `Inv`
      rules such a state out. */
  lemma LongclickConsistentNotInductive()
    ensures var b := Button(0, LOW, HIGH, HIGH, 1, 300, 0, 0, 50, true, true, None);
      && LongclickConsistent(b) && !Inv(b)
      && !LongclickConsistent(Loop(b, HIGH, Defaults).next)
  {
  }
}

=== FILE: button_defs.dfy ===
/** Compile-time definitions of the button library: the byte type of the
    Arduino core, the electrical levels, the four timing thresholds (each a
    macro that a build may predefine), the six event codes and the pin modes
    the constructor can configure. */
module ButtonDefs {
  import opened Wrappers

  /** Arduino `byte`: an unsigned 8-bit integer. */
  type byte = x: int | 0 <= x < 256

  /** A digital level as `digitalRead` returns it: `true` is HIGH, `false` is LOW. */
  type Level = bool

  const HIGH: Level := true
  const LOW: Level := false

  /** The defaults a build gets when it does not predefine the macro. */
  const DefaultDebounceMs: nat := 50
  const DefaultLongclickMs: nat := 250
  const DefaultLongclickRepeatMs: nat := 250
  const DefaultMulticlickMs: nat := 300

  /** The four timing macros in effect for one build, in milliseconds.
      `debounceMs` only supplies the constructor's default debounce argument;
      the other three are compared against the timers inside `loop()`. */
  datatype Thresholds = Thresholds(
    debounceMs: nat,
    longclickMs: nat,
    longclickRepeatMs: nat,
    multiclickMs: nat)

  /** The values a build predefines before including the header (`None`: not defined). */
  datatype Overrides = Overrides(
    debounceMs: Option<nat>,
    longclickMs: Option<nat>,
    longclickRepeatMs: Option<nat>,
    multiclickMs: Option<nat>)

  const NoOverrides := Overrides(None, None, None, None)

  /** The `#ifndef X / #define X default` guards: a predefined value wins,
      otherwise the library default applies. */
  function Resolve(o: Overrides): (t: Thresholds)
    ensures o.debounceMs.Some? ==> t.debounceMs == o.debounceMs.value
    ensures o.debounceMs.None? ==> t.debounceMs == DefaultDebounceMs
    ensures o.longclickMs.Some? ==> t.longclickMs == o.longclickMs.value
    ensures o.longclickMs.None? ==> t.longclickMs == DefaultLongclickMs
    ensures o.longclickRepeatMs.Some? ==> t.longclickRepeatMs == o.longclickRepeatMs.value
    ensures o.longclickRepeatMs.None? ==> t.longclickRepeatMs == DefaultLongclickRepeatMs
    ensures o.multiclickMs.Some? ==> t.multiclickMs == o.multiclickMs.value
    ensures o.multiclickMs.None? ==> t.multiclickMs == DefaultMulticlickMs
  {
    Thresholds(
      o.debounceMs.GetOr(DefaultDebounceMs),
      o.longclickMs.GetOr(DefaultLongclickMs),
      o.longclickRepeatMs.GetOr(DefaultLongclickRepeatMs),
      o.multiclickMs.GetOr(DefaultMulticlickMs))
  }

  /** A build that predefines nothing gets 50 / 250 / 250 / 300 ms. */
  lemma DefaultThresholds()
    ensures Resolve(NoOverrides) == Thresholds(50, 250, 250, 300)
  {
  }

  /** The thresholds of a build that predefines nothing. */
  const Defaults: Thresholds := Resolve(NoOverrides)

  /** The constructor's default debounce argument is `DEBOUNCE_MS` converted to
      the `byte` parameter, so a predefined value above 255 is truncated. */
  function DefaultDebounceArg(t: Thresholds): (ms: byte)
    ensures t.debounceMs < 256 ==> ms == t.debounceMs
    ensures (t.debounceMs - ms) % 256 == 0
  {
    t.debounceMs % 256
  }

  /** The six callback event codes. */
  datatype Event = Pressed | Released | ClickFinish | LongFirst | LongRepeat | LongFinish

  /** The numeric code passed to the callback (the `BUTTON_*` macros). */
  function Code(e: Event): (c: byte)
    ensures c < 6
  {
    match e
    case Pressed => 0
    case Released => 1
    case ClickFinish => 2
    case LongFirst => 3
    case LongRepeat => 4
    case LongFinish => 5
  }

  /** The event a callback receiving code `c` is being told about, if any. */
  function FromCode(c: byte): (r: Option<Event>)
    ensures r.Some? <==> c < 6
  {
    if c == 0 then Some(Pressed)
    else if c == 1 then Some(Released)
    else if c == 2 then Some(ClickFinish)
    else if c == 3 then Some(LongFirst)
    else if c == 4 then Some(LongRepeat)
    else if c == 5 then Some(LongFinish)
    else None
  }

  /** Decoding inverts encoding, in both directions. */
  lemma CodeRoundTrip(e: Event, c: byte)
    ensures FromCode(Code(e)) == Some(e)
    ensures FromCode(c) == Some(e) ==> Code(e) == c
  {
  }

  /** The codes are pairwise distinct and are exactly 0..5. */
  lemma CodesDistinct(e1: Event, e2: Event)
    ensures Code(e1) == Code(e2) ==> e1 == e2
    ensures forall c: byte :: c < 6 ==> FromCode(c).Some? && Code(FromCode(c).value) == c
  {
  }

  /** The input modes `pinMode` accepts for a button. */
  datatype PinMode = Input | InputPullup | InputPulldown
}

=== FILE: traces.dfy ===
/** Runs of `loop()` over a finite sequence of polls, and the gestures the
    state machine recognises in them: a single click, a double click, a long
    click with repeats, and a bounce that never confirms.

    A trace is a sequence of samples, each the pin level read by one poll and
    the milliseconds since the previous poll (or since the last `reset()`, or
    since construction for the first poll). Traces are assembled from segments:
    a single poll where a threshold is crossed, and `Hold` runs in which the
    level stays the same and (by the segment's requirement) no threshold is
    crossed. */
module ButtonTraces {
  import opened Wrappers
  import opened ButtonDefs
  import opened CarButton

  /** One poll: the level `digitalRead` returns, and the milliseconds since the
      latest of the previous poll, the last `reset()` and the construction of
      the object. */
  datatype Sample = Sample(level: Level, dt: nat)

  function Sum(dts: seq<nat>): nat
  {
    if dts == [] then 0 else dts[0] + Sum(dts[1..])
  }

  /** Polls that all read `level`, spaced by `dts`. */
  function Hold(level: Level, dts: seq<nat>): (r: seq<Sample>)
    ensures |r| == |dts|
  {
    if dts == [] then [] else [Sample(level, dts[0])] + Hold(level, dts[1..])
  }

  /** One poll as a function of the state and the sample. */
  type Poller = (Button, Sample) -> Polled

  /** Polling once per sample with `poll`: the final fields and every callback
      invocation, in order. */
  function RunWith(poll: Poller, b: Button, samples: seq<Sample>): Polled
    decreases |samples|
  {
    if samples == [] then Polled(b, [])
    else
      var p := poll(b, samples[0]);
      var rest := RunWith(poll, p.next, samples[1..]);
      Polled(rest.next, p.calls + rest.calls)
  }

  lemma RunWithCons(poll: Poller, b: Button, x: Sample, rest: seq<Sample>)
    ensures RunWith(poll, b, [x] + rest)
         == Polled(RunWith(poll, poll(b, x).next, rest).next,
                   poll(b, x).calls + RunWith(poll, poll(b, x).next, rest).calls)
  {
    assert ([x] + rest)[0] == x;
    assert ([x] + rest)[1..] == rest;
  }

  /** Running two traces one after the other is running their concatenation. */
  lemma {:induction false} RunWithAppend(poll: Poller, b: Button, s1: seq<Sample>, s2: seq<Sample>)
    ensures RunWith(poll, b, s1 + s2)
         == Polled(RunWith(poll, RunWith(poll, b, s1).next, s2).next,
                   RunWith(poll, b, s1).calls + RunWith(poll, RunWith(poll, b, s1).next, s2).calls)
    decreases |s1|
  {
    if s1 == [] {
      assert s1 + s2 == s2;
    } else {
      var x := s1[0];
      assert s1 == [x] + s1[1..];
      assert s1 + s2 == [x] + (s1[1..] + s2);
      RunWithCons(poll, b, x, s1[1..] + s2);
      RunWithCons(poll, b, x, s1[1..]);
      RunWithAppend(poll, poll(b, x).next, s1[1..], s2);
      assert (poll(b, x).calls + RunWith(poll, poll(b, x).next, s1[1..]).calls)
             + RunWith(poll, RunWith(poll, b, s1).next, s2).calls
          == poll(b, x).calls + (RunWith(poll, poll(b, x).next, s1[1..]).calls
             + RunWith(poll, RunWith(poll, b, s1).next, s2).calls);
    }
  }

  /** `loop()` under the build's thresholds, one sample at a time. */
  function LoopOf(t: Thresholds): Poller
  {
    (b: Button, x: Sample) => Step(b, x.level, x.dt, t)
  }

  /** Polling the button once per sample. */
  function Run(b: Button, samples: seq<Sample>, t: Thresholds): Polled
  {
    RunWith(LoopOf(t), b, samples)
  }

  lemma RunCons(b: Button, x: Sample, rest: seq<Sample>, t: Thresholds)
    ensures Run(b, [x] + rest, t)
         == Polled(Run(Step(b, x.level, x.dt, t).next, rest, t).next,
                   Step(b, x.level, x.dt, t).calls + Run(Step(b, x.level, x.dt, t).next, rest, t).calls)
  {
    RunWithCons(LoopOf(t), b, x, rest);
  }

  lemma RunAppend(b: Button, s1: seq<Sample>, s2: seq<Sample>, t: Thresholds)
    ensures Run(b, s1 + s2, t)
         == Polled(Run(Run(b, s1, t).next, s2, t).next,
                   Run(b, s1, t).calls + Run(Run(b, s1, t).next, s2, t).calls)
  {
    RunWithAppend(LoopOf(t), b, s1, s2);
  }

  /** Polling once per sample through `Poll`: the first poll that would call
      the callback while none is registered ends the run with the fault. */
  function PollRun(b: Button, samples: seq<Sample>, t: Thresholds): Result<Polled, Fault>
    decreases |samples|
  {
    if samples == [] then Ok(Polled(b, []))
    else
      match Poll(b, samples[0].level, samples[0].dt, t)
      case Err(e) => Err(e)
      case Ok(p) =>
        match PollRun(p.next, samples[1..], t)
        case Err(e) => Err(e)
        case Ok(rest) => Ok(Polled(rest.next, p.calls + rest.calls))
  }

  /** A run reaches its end exactly when a callback is registered or the run
      never calls it; it then has the result of `Run`. Otherwise it faults:
      `loop()` calls the callback with no NULL check. */
  lemma {:induction false} PollRunMatchesRun(b: Button, samples: seq<Sample>, t: Thresholds)
    ensures PollRun(b, samples, t)
         == if b.callback.Some? || Run(b, samples, t).calls == [] then Ok(Run(b, samples, t))
            else Err(NullCallback)
    decreases |samples|
  {
    if samples != [] {
      var x := samples[0];
      assert samples == [x] + samples[1..];
      RunCons(b, x, samples[1..], t);
      StepTimers(b, x.level, x.dt, t);
      var p := Step(b, x.level, x.dt, t);
      PollRunMatchesRun(p.next, samples[1..], t);
    }
  }

  /** `b'` is `b` after `d` quiet milliseconds: both timers advanced by `d`,
      nothing else changed except the previous sample. */
  predicate Advanced(b: Button, b': Button, d: nat)
  {
    b' == b.(prevLevel := b'.prevLevel,
             sincePressed := b.sincePressed + d,
             sinceLongclick := b.sinceLongclick + d)
  }

  /** A button at rest: released, nothing confirmed, no clicks pending. */
  predicate Idle(b: Button)
  {
    Inv(b) && !IsPressed(b) && !b.pressedTriggered && b.clickCount == 0
  }

  // ----- Quiet segments: the level holds and no threshold is crossed -----

  /** A poll that repeats the previous sample and crosses no threshold. */
  predicate QuietPoll(b: Button, level: Level, dt: nat, t: Thresholds)
  {
    && level == b.currLevel
    && if level == b.pressedLevel then
         || (!b.pressedTriggered && b.sincePressed + dt < b.debounceMs)
         || (b.pressedTriggered && b.clickCount != 1)
         || (b.pressedTriggered && !b.longclickDetected && b.sincePressed + dt < t.longclickMs)
       else
         !b.pressedTriggered || b.clickCount == 0 || b.sincePressed + dt < t.multiclickMs
  }

  /** A quiet poll emits nothing and only advances the timers. */
  lemma QuietStep(b: Button, level: Level, dt: nat, t: Thresholds)
    requires QuietPoll(b, level, dt, t)
    ensures Step(b, level, dt, t) == Polled(Elapse(b, dt).(prevLevel := b.currLevel), [])
  {
  }

  /** The timers advanced by `dt`, with the sample shifted: what a quiet poll leaves. */
  function After(b: Button, dt: nat): Button
  {
    Elapse(b, dt).(prevLevel := b.currLevel)
  }

  /** Quiet time composes: a quiet poll followed by `d` quiet milliseconds. */
  lemma AdvancedAfter(b: Button, b': Button, d0: nat, d: nat)
    requires Advanced(After(b, d0), b', d)
    ensures Advanced(b, b', d0 + d)
  {
  }

  /** A hold whose first poll is quiet is that poll's silence followed by the rest. */
  lemma QuietHoldCons(b: Button, level: Level, dts: seq<nat>, t: Thresholds)
    requires dts != [] && QuietPoll(b, level, dts[0], t)
    ensures Run(b, Hold(level, dts), t) == Run(After(b, dts[0]), Hold(level, dts[1..]), t)
  {
    QuietStep(b, level, dts[0], t);
    RunCons(b, Sample(level, dts[0]), Hold(level, dts[1..]), t);
  }

  /** Every poll of the hold `dts` at `level`, started from `b`, is quiet. */
  predicate QuietHold(b: Button, level: Level, dts: seq<nat>, t: Thresholds)
    decreases |dts|
  {
    dts == [] || (QuietPoll(b, level, dts[0], t) && QuietHold(After(b, dts[0]), level, dts[1..], t))
  }

  /** A hold of quiet polls emits nothing and only advances the timers. */
  lemma {:induction false} QuietHoldRun(b: Button, level: Level, dts: seq<nat>, t: Thresholds)
    requires QuietHold(b, level, dts, t)
    ensures Run(b, Hold(level, dts), t).calls == []
    ensures Advanced(b, Run(b, Hold(level, dts), t).next, Sum(dts))
    decreases |dts|
  {
    if dts != [] {
      QuietHoldCons(b, level, dts, t);
      QuietHoldRun(After(b, dts[0]), level, dts[1..], t);
      AdvancedAfter(b, Run(b, Hold(level, dts), t).next, dts[0], Sum(dts[1..]));
    }
  }

  /** Released with nothing confirmed: every poll is quiet, so the click
      count never changes. */
  lemma {:induction false} ReleasedUnconfirmedQuiet(b: Button, dts: seq<nat>, t: Thresholds)
    requires !IsPressed(b) && !b.pressedTriggered
    ensures QuietHold(b, !b.pressedLevel, dts, t)
    decreases |dts|
  {
    if dts != [] {
      ReleasedUnconfirmedQuiet(After(b, dts[0]), dts[1..], t);
    }
  }

  /** Held but not yet confirmed, staying below the debounce time: quiet. */
  lemma {:induction false} DebouncingQuiet(b: Button, dts: seq<nat>, t: Thresholds)
    requires IsPressed(b) && !b.pressedTriggered
    requires b.sincePressed + Sum(dts) < b.debounceMs
    ensures QuietHold(b, b.pressedLevel, dts, t)
    decreases |dts|
  {
    if dts != [] {
      DebouncingQuiet(After(b, dts[0]), dts[1..], t);
    }
  }

  /** A confirmed single press held below the long-click time: quiet. */
  lemma {:induction false} HeldBelowLongQuiet(b: Button, dts: seq<nat>, t: Thresholds)
    requires IsPressed(b) && b.pressedTriggered && b.clickCount == 1 && !b.longclickDetected
    requires b.sincePressed + Sum(dts) < t.longclickMs
    ensures QuietHold(b, b.pressedLevel, dts, t)
    decreases |dts|
  {
    if dts != [] {
      HeldBelowLongQuiet(After(b, dts[0]), dts[1..], t);
    }
  }

  /** A confirmed press that is not the first of its episode is quiet however
      long it is held: multi-click suppresses long-click. */
  lemma {:induction false} MultiHeldQuiet(b: Button, dts: seq<nat>, t: Thresholds)
    requires IsPressed(b) && b.pressedTriggered && b.clickCount != 1
    ensures QuietHold(b, b.pressedLevel, dts, t)
    decreases |dts|
  {
    if dts != [] {
      MultiHeldQuiet(After(b, dts[0]), dts[1..], t);
    }
  }

  /** Released after a confirmed press, still inside the multi-click window: quiet. */
  lemma {:induction false} ClickWindowQuiet(b: Button, dts: seq<nat>, t: Thresholds)
    requires !IsPressed(b) && b.pressedTriggered
    requires b.sincePressed + Sum(dts) < t.multiclickMs
    ensures QuietHold(b, !b.pressedLevel, dts, t)
    decreases |dts|
  {
    if dts != [] {
      ClickWindowQuiet(After(b, dts[0]), dts[1..], t);
    }
  }

  /** A detected long click, still held. */
  predicate LongHeld(b: Button)
  {
    IsPressed(b) && b.pressedTriggered && b.clickCount == 1 && b.longclickDetected
  }

  /** One poll while a long click is held: LONG_REPEAT once the repeat time
      has passed, otherwise nothing. */
  lemma LongHeldStep(b: Button, dt: nat, t: Thresholds)
    requires LongHeld(b)
    ensures Step(b, b.pressedLevel, dt, t)
         == if b.sinceLongclick + dt >= t.longclickRepeatMs then
              Polled(After(b, dt).(timePressedMs := b.sincePressed + dt, sinceLongclick := 0),
                     [Notice(LongRepeat, 1, b.sincePressed + dt)])
            else
              Polled(After(b, dt), [])
  {
  }

  /** Holding a detected long click emits nothing but LONG_REPEAT and keeps the
      long click alive. */
  lemma {:induction false} LongHoldRepeats(b: Button, dts: seq<nat>, t: Thresholds)
    requires LongHeld(b)
    ensures forall i :: 0 <= i < |Run(b, Hold(b.pressedLevel, dts), t).calls| ==>
              Run(b, Hold(b.pressedLevel, dts), t).calls[i].event == LongRepeat
    ensures LongHeld(Run(b, Hold(b.pressedLevel, dts), t).next)
    ensures Run(b, Hold(b.pressedLevel, dts), t).next.sincePressed == b.sincePressed + Sum(dts)
    ensures SameConfig(b, Run(b, Hold(b.pressedLevel, dts), t).next)
    decreases |dts|
  {
    if dts != [] {
      var P := b.pressedLevel;
      LongHeldStep(b, dts[0], t);
      var p := Step(b, P, dts[0], t);
      RunCons(b, Sample(P, dts[0]), Hold(P, dts[1..]), t);
      LongHoldRepeats(p.next, dts[1..], t);
      var rest := Run(p.next, Hold(P, dts[1..]), t);
      assert Run(b, Hold(P, dts), t).calls == p.calls + rest.calls;
      forall i | 0 <= i < |p.calls + rest.calls|
        ensures (p.calls + rest.calls)[i].event == LongRepeat
      {
        if i >= |p.calls| {
          assert (p.calls + rest.calls)[i] == rest.calls[i - |p.calls|];
        }
      }
    }
  }

  /** Repeats never come faster than the repeat time, and none is left overdue:
      every LONG_REPEAT accounts for at least the repeat time of held time, a
      hold without any LONG_REPEAT leaves the repeat timer running, and at the
      end of the hold the timer is below the repeat time or was just restarted. */
  lemma {:induction false} RepeatCadence(b: Button, dts: seq<nat>, t: Thresholds)
    requires LongHeld(b)
    ensures |Run(b, Hold(b.pressedLevel, dts), t).calls| * t.longclickRepeatMs
            + Run(b, Hold(b.pressedLevel, dts), t).next.sinceLongclick
            <= b.sinceLongclick + Sum(dts)
    ensures dts != [] ==>
              Run(b, Hold(b.pressedLevel, dts), t).next.sinceLongclick < t.longclickRepeatMs
              || Run(b, Hold(b.pressedLevel, dts), t).next.sinceLongclick == 0
    ensures Run(b, Hold(b.pressedLevel, dts), t).calls == [] ==>
              Run(b, Hold(b.pressedLevel, dts), t).next.sinceLongclick == b.sinceLongclick + Sum(dts)
    decreases |dts|
  {
    if dts != [] {
      var P := b.pressedLevel;
      LongHeldStep(b, dts[0], t);
      var p := Step(b, P, dts[0], t);
      RunCons(b, Sample(P, dts[0]), Hold(P, dts[1..]), t);
      RepeatCadence(p.next, dts[1..], t);
      var rest := Run(p.next, Hold(P, dts[1..]), t);
      var k, n, R := |p.calls|, |rest.calls|, t.longclickRepeatMs;
      assert |Run(b, Hold(P, dts), t).calls| == k + n;
      assert (k + n) * R == k * R + n * R;
      assert n * R + rest.next.sinceLongclick <= p.next.sinceLongclick + Sum(dts[1..]);
      if k == 1 {
        assert p.next.sinceLongclick == 0 && R <= b.sinceLongclick + dts[0];
      } else {
        assert k == 0 && p.next.sinceLongclick == b.sinceLongclick + dts[0];
      }
      if dts[1..] == [] {
        assert rest.next == p.next;
      }
      assert Sum(dts) == dts[0] + Sum(dts[1..]);
    }
  }

  // ----- The polls at which a threshold is crossed -----

  /** The first poll that reads the pressed level. */
  lemma EdgeStep(b: Button, dt: nat, t: Thresholds)
    requires !IsPressed(b)
    ensures Step(b, b.pressedLevel, dt, t)
         == Polled(b.(prevLevel := b.currLevel, currLevel := b.pressedLevel, sincePressed := 0,
                      sinceLongclick := 0, pressedTriggered := false, longclickDetected := false), [])
  {
  }

  /** The poll at which the debounce time is reached. */
  lemma ConfirmStep(b: Button, dt: nat, t: Thresholds)
    requires IsPressed(b) && !b.pressedTriggered && b.sincePressed + dt >= b.debounceMs
    ensures Step(b, b.pressedLevel, dt, t)
         == Polled(After(b, dt).(pressedTriggered := true, clickCount := (b.clickCount + 1) % 256),
                   [Notice(Pressed, (b.clickCount + 1) % 256, b.timePressedMs)])
  {
  }

  /** The poll at which a first click reaches the long-click time. */
  lemma LongFirstStep(b: Button, dt: nat, t: Thresholds)
    requires IsPressed(b) && b.pressedTriggered && b.clickCount == 1 && !b.longclickDetected
    requires b.sincePressed + dt >= t.longclickMs
    ensures Step(b, b.pressedLevel, dt, t)
         == Polled(After(b, dt).(timePressedMs := b.sincePressed + dt, longclickDetected := true,
                                 sinceLongclick := 0),
                   [Notice(LongFirst, 1, b.sincePressed + dt)])
  {
  }

  /** The release edge of a confirmed press that is not a long click. */
  lemma ReleaseStep(b: Button, dt: nat, t: Thresholds)
    requires IsPressed(b) && b.pressedTriggered && !b.longclickDetected
    ensures Step(b, !b.pressedLevel, dt, t)
         == Polled(After(b, dt).(currLevel := !b.pressedLevel, timePressedMs := b.sincePressed + dt),
                   [Notice(Released, b.clickCount, b.sincePressed + dt)])
  {
  }

  /** The release edge of a long click. */
  lemma LongFinishStep(b: Button, dt: nat, t: Thresholds)
    requires LongHeld(b)
    ensures Step(b, !b.pressedLevel, dt, t)
         == Polled(After(b, dt).(currLevel := !b.pressedLevel, timePressedMs := b.sincePressed + dt,
                                 longclickDetected := false, pressedTriggered := false, clickCount := 0),
                   [Notice(LongFinish, 1, b.sincePressed + dt)])
  {
  }

  /** The poll at which the multi-click window closes. */
  lemma ClickFinishStep(b: Button, dt: nat, t: Thresholds)
    requires !IsPressed(b) && b.pressedTriggered && b.clickCount > 0
    requires b.sincePressed + dt >= t.multiclickMs
    ensures Step(b, !b.pressedLevel, dt, t)
         == Polled(After(b, dt).(pressedTriggered := false, clickCount := 0),
                   [Notice(ClickFinish, b.clickCount, b.timePressedMs)])
  {
  }

  /** A press episode that stays pressed, as poll spacings: the edge poll, the
      polls before the debounce time, the poll that reaches it, and the polls
      held after it. */
  datatype Press = Press(edgeDt: nat, settle: seq<nat>, confirmDt: nat, hold: seq<nat>)

  /** Milliseconds from the edge poll to the last held poll. */
  function Duration(p: Press): nat
  {
    Sum(p.settle) + p.confirmDt + Sum(p.hold)
  }

  /** The debounce time is first reached at the confirming poll. */
  predicate ConfirmsAt(p: Press, debounceMs: nat)
  {
    SettlesBelow(p.settle, debounceMs) && debounceMs <= Sum(p.settle) + p.confirmDt
  }

  /** No poll between the edge and the confirming one reaches the debounce
      time. With a debounce time of 0 there is no such poll: the first held
      poll after the edge confirms. */
  predicate SettlesBelow(settle: seq<nat>, debounceMs: nat)
  {
    settle == [] || Sum(settle) < debounceMs
  }

  /** No poll after the confirming one reaches the long-click time: either
      the press is released right after it is confirmed, or it is released
      before the long-click time. */
  predicate ShortHold(p: Press, t: Thresholds)
  {
    p.hold == [] || Duration(p) < t.longclickMs
  }

  function PressTrace(level: Level, p: Press): seq<Sample>
  {
    ([Sample(level, p.edgeDt)] + Hold(level, p.settle)) + ([Sample(level, p.confirmDt)] + Hold(level, p.hold))
  }

  /** The edge poll and the polls before the debounce time: silent, and the
      press episode starts over with both timers restarted at the edge. */
  lemma SettlePhase(b: Button, t: Thresholds, edgeDt: nat, settle: seq<nat>)
    requires !IsPressed(b) && SettlesBelow(settle, b.debounceMs)
    ensures var r := Run(b, [Sample(b.pressedLevel, edgeDt)] + Hold(b.pressedLevel, settle), t);
      && r.calls == []
      && r.next == b.(prevLevel := r.next.prevLevel, currLevel := b.pressedLevel,
                      sincePressed := Sum(settle), sinceLongclick := Sum(settle),
                      pressedTriggered := false, longclickDetected := false)
  {
    var P := b.pressedLevel;
    EdgeStep(b, edgeDt, t);
    RunCons(b, Sample(P, edgeDt), Hold(P, settle), t);
    var b1 := Step(b, P, edgeDt, t).next;
    if settle != [] {
      DebouncingQuiet(b1, settle, t);
    }
    QuietHoldRun(b1, P, settle, t);
  }

  /** The confirming poll and the polls held after it: one PRESSED. */
  lemma ConfirmPhase(b: Button, t: Thresholds, confirmDt: nat, hold: seq<nat>)
    requires IsPressed(b) && !b.pressedTriggered && !b.longclickDetected
    requires b.debounceMs <= b.sincePressed + confirmDt
    requires (b.clickCount + 1) % 256 == 1 ==>
               hold == [] || b.sincePressed + confirmDt + Sum(hold) < t.longclickMs
    ensures var r := Run(b, [Sample(b.pressedLevel, confirmDt)] + Hold(b.pressedLevel, hold), t);
      && r.calls == [Notice(Pressed, (b.clickCount + 1) % 256, b.timePressedMs)]
      && r.next == b.(prevLevel := r.next.prevLevel,
                      sincePressed := b.sincePressed + confirmDt + Sum(hold),
                      sinceLongclick := b.sinceLongclick + confirmDt + Sum(hold),
                      pressedTriggered := true, clickCount := (b.clickCount + 1) % 256)
  {
    var P := b.pressedLevel;
    ConfirmStep(b, confirmDt, t);
    RunCons(b, Sample(P, confirmDt), Hold(P, hold), t);
    var b1 := Step(b, P, confirmDt, t).next;
    if b1.clickCount == 1 {
      if hold != [] {
        HeldBelowLongQuiet(b1, hold, t);
      }
    } else {
      MultiHeldQuiet(b1, hold, t);
    }
    QuietHoldRun(b1, P, hold, t);
  }

  /** From any released state, a press held past the debounce time emits
      exactly one PRESSED and counts one more click. A first click must not be
      held past the long-click time after its confirming poll; any later one is
      never promoted to a long click. */
  lemma PressPhase(b: Button, t: Thresholds, p: Press)
    requires !IsPressed(b) && ConfirmsAt(p, b.debounceMs)
    requires (b.clickCount + 1) % 256 == 1 ==> ShortHold(p, t)
    ensures var r := Run(b, PressTrace(b.pressedLevel, p), t);
      && r.calls == [Notice(Pressed, (b.clickCount + 1) % 256, b.timePressedMs)]
      && r.next == b.(prevLevel := r.next.prevLevel, currLevel := b.pressedLevel,
                      sincePressed := Duration(p), sinceLongclick := Duration(p),
                      pressedTriggered := true, longclickDetected := false,
                      clickCount := (b.clickCount + 1) % 256)
  {
    var P := b.pressedLevel;
    var s1 := [Sample(P, p.edgeDt)] + Hold(P, p.settle);
    var s2 := [Sample(P, p.confirmDt)] + Hold(P, p.hold);
    SettlePhase(b, t, p.edgeDt, p.settle);
    var b1 := Run(b, s1, t).next;
    ConfirmPhase(b1, t, p.confirmDt, p.hold);
    var b2 := Run(b1, s2, t).next;
    SettleThenConfirm(b, b1, b2, Sum(p.settle), p.confirmDt + Sum(p.hold));
    RunAppend(b, s1, s2, t);
  }

  /** The fields after a settle phase followed by a confirm phase. */
  lemma SettleThenConfirm(b: Button, b1: Button, b2: Button, settle: nat, rest: nat)
    requires b1 == b.(prevLevel := b1.prevLevel, currLevel := b.pressedLevel,
                      sincePressed := settle, sinceLongclick := settle,
                      pressedTriggered := false, longclickDetected := false)
    requires b2 == b1.(prevLevel := b2.prevLevel,
                       sincePressed := b1.sincePressed + rest,
                       sinceLongclick := b1.sinceLongclick + rest,
                       pressedTriggered := true, clickCount := (b1.clickCount + 1) % 256)
    ensures b2 == b.(prevLevel := b2.prevLevel, currLevel := b.pressedLevel,
                     sincePressed := settle + rest, sinceLongclick := settle + rest,
                     pressedTriggered := true, longclickDetected := false,
                     clickCount := (b.clickCount + 1) % 256)
  {
  }

  /** The release edge and the polls after it inside the multi-click window. */
  datatype Release = Release(edgeDt: nat, wait: seq<nat>)

  /** No poll after the release edge reaches the multi-click time, which is
      counted from the press edge. The release edge itself emits RELEASED
      whatever the timer, so a press released at or after the multi-click
      time gets its CLICK_FINISH at the next released poll. */
  predicate WaitsInWindow(p: Press, rl: Release, t: Thresholds)
  {
    rl.wait == [] || Duration(p) + rl.edgeDt + Sum(rl.wait) < t.multiclickMs
  }

  function ReleaseTrace(level: Level, r: Release): seq<Sample>
  {
    [Sample(!level, r.edgeDt)] + Hold(!level, r.wait)
  }

  /** Releasing a confirmed press that is not a long click emits RELEASED with
      the press duration, keeps the clicks pending, and stays silent while the
      multi-click window is open. */
  lemma ReleasePhase(b: Button, t: Thresholds, rl: Release)
    requires IsPressed(b) && b.pressedTriggered && !b.longclickDetected
    requires rl.wait == [] || b.sincePressed + rl.edgeDt + Sum(rl.wait) < t.multiclickMs
    ensures var r := Run(b, ReleaseTrace(b.pressedLevel, rl), t);
      && r.calls == [Notice(Released, b.clickCount, b.sincePressed + rl.edgeDt)]
      && r.next == b.(prevLevel := r.next.prevLevel, currLevel := !b.pressedLevel,
                      sincePressed := b.sincePressed + rl.edgeDt + Sum(rl.wait),
                      sinceLongclick := b.sinceLongclick + rl.edgeDt + Sum(rl.wait),
                      timePressedMs := b.sincePressed + rl.edgeDt)
  {
    var P := b.pressedLevel;
    ReleaseStep(b, rl.edgeDt, t);
    RunCons(b, Sample(!P, rl.edgeDt), Hold(!P, rl.wait), t);
    var b1 := Step(b, !P, rl.edgeDt, t).next;
    if rl.wait != [] {
      ClickWindowQuiet(b1, rl.wait, t);
    }
    QuietHoldRun(b1, !P, rl.wait, t);
  }

  /** The poll that closes the multi-click window and the idle polls after it. */
  datatype Finish = Finish(dt: nat, idle: seq<nat>)

  function FinishTrace(level: Level, f: Finish): seq<Sample>
  {
    [Sample(!level, f.dt)] + Hold(!level, f.idle)
  }

  /** Once the multi-click time has passed, CLICK_FINISH reports the pending
      clicks and the button is idle again; nothing follows. */
  lemma FinishPhase(b: Button, t: Thresholds, f: Finish)
    requires Inv(b) && !IsPressed(b) && b.pressedTriggered && b.clickCount > 0
    requires b.sincePressed + f.dt >= t.multiclickMs
    ensures var r := Run(b, FinishTrace(b.pressedLevel, f), t);
      && r.calls == [Notice(ClickFinish, b.clickCount, b.timePressedMs)]
      && Idle(r.next) && r.next.timePressedMs == b.timePressedMs
  {
    var P := b.pressedLevel;
    ClickFinishStep(b, f.dt, t);
    RunCons(b, Sample(!P, f.dt), Hold(!P, f.idle), t);
    var b1 := Step(b, !P, f.dt, t).next;
    ReleasedUnconfirmedQuiet(b1, f.idle, t);
    QuietHoldRun(b1, !P, f.idle, t);
  }

  /** From any released state: a press confirmed as click `c + 1` (mod 256)
      and released again inside the multi-click window emits PRESSED and
      RELEASED and leaves the click pending. */
  lemma ClickPhase(b: Button, t: Thresholds, p: Press, rl: Release)
    requires !IsPressed(b) && ConfirmsAt(p, b.debounceMs)
    requires (b.clickCount + 1) % 256 == 1 ==> ShortHold(p, t)
    requires WaitsInWindow(p, rl, t)
    ensures var P := b.pressedLevel;
      var r := Run(b, PressTrace(P, p) + ReleaseTrace(P, rl), t);
      var c, held := (b.clickCount + 1) % 256, Duration(p) + rl.edgeDt;
      && r.calls == [Notice(Pressed, c, b.timePressedMs), Notice(Released, c, held)]
      && r.next == b.(prevLevel := r.next.prevLevel,
                      sincePressed := held + Sum(rl.wait), sinceLongclick := held + Sum(rl.wait),
                      pressedTriggered := true, longclickDetected := false,
                      clickCount := c, timePressedMs := held)
  {
    var P := b.pressedLevel;
    var s1, s2 := PressTrace(P, p), ReleaseTrace(P, rl);
    RunAppend(b, s1, s2, t);
    PressPhase(b, t, p);
    ReleasePhase(Run(b, s1, t).next, t, rl);
  }

  /** The calls and the final fields of a single click, as `Run` records them. */
  lemma SingleClickRun(b: Button, t: Thresholds, p: Press, rl: Release, f: Finish)
    requires Idle(b) && ConfirmsAt(p, b.debounceMs)
    requires ShortHold(p, t)
    requires WaitsInWindow(p, rl, t)
    requires t.multiclickMs <= Duration(p) + rl.edgeDt + Sum(rl.wait) + f.dt
    ensures var P := b.pressedLevel;
      var r := Run(b, PressTrace(P, p) + ReleaseTrace(P, rl) + FinishTrace(P, f), t);
      var held := Duration(p) + rl.edgeDt;
      && r.calls == [Notice(Pressed, 1, b.timePressedMs), Notice(Released, 1, held),
                     Notice(ClickFinish, 1, held)]
      && Idle(r.next) && WasPressedFor(r.next) == held
  {
    var P := b.pressedLevel;
    var s1, s2, s3 := PressTrace(P, p), ReleaseTrace(P, rl), FinishTrace(P, f);
    RunAppend(b, s1 + s2, s3, t);
    ClickPhase(b, t, p, rl);
    var r1 := Run(b, s1 + s2, t);
    assert Inv(r1.next);
    FinishPhase(r1.next, t, f);
  }

  /** A single click: PRESSED, RELEASED, CLICK_FINISH and nothing else, one
      click reported, the press duration measured up to the release poll, and
      the button idle afterwards.
      With a callback registered the run completes with exactly these calls;
      with none registered, the first of them is a call through NULL and the
      run faults. */
  lemma SingleClick(b: Button, t: Thresholds, p: Press, rl: Release, f: Finish)
    requires Idle(b) && ConfirmsAt(p, b.debounceMs)
    requires ShortHold(p, t)
    requires WaitsInWindow(p, rl, t)
    requires t.multiclickMs <= Duration(p) + rl.edgeDt + Sum(rl.wait) + f.dt
    ensures var P := b.pressedLevel;
      var s := PressTrace(P, p) + ReleaseTrace(P, rl) + FinishTrace(P, f);
      var r := Run(b, s, t);
      var held := Duration(p) + rl.edgeDt;
      && r.calls == [Notice(Pressed, 1, b.timePressedMs), Notice(Released, 1, held),
                     Notice(ClickFinish, 1, held)]
      && Idle(r.next) && WasPressedFor(r.next) == held
      && PollRun(b, s, t) == if b.callback.Some? then Ok(r) else Err(NullCallback)
  {
    var P := b.pressedLevel;
    SingleClickRun(b, t, p, rl, f);
    PollRunMatchesRun(b, PressTrace(P, p) + ReleaseTrace(P, rl) + FinishTrace(P, f), t);
  }

  /** A click on a freshly constructed button faults, because the constructor
      registers no callback; after `setButtonHandler(f)` the same click
      completes exactly when `f` is not NULL. */
  lemma ClickNeedsHandler(pin: byte, mode: PinMode, activeLow: bool, debounceMs: byte, f: Option<Callback>,
                          t: Thresholds, p: Press, rl: Release, fin: Finish)
    requires ConfirmsAt(p, debounceMs) && ShortHold(p, t)
    requires WaitsInWindow(p, rl, t)
    requires t.multiclickMs <= Duration(p) + rl.edgeDt + Sum(rl.wait) + fin.dt
    ensures var b := Construct(pin, mode, activeLow, debounceMs).button;
      var P := b.pressedLevel;
      var s := PressTrace(P, p) + ReleaseTrace(P, rl) + FinishTrace(P, fin);
      && PollRun(b, s, t) == Err(NullCallback)
      && (PollRun(SetButtonHandler(b, f), s, t).Ok? <==> f.Some?)
  {
    var b := Construct(pin, mode, activeLow, debounceMs).button;
    InvConstructed(pin, mode, activeLow, debounceMs);
    SingleClick(b, t, p, rl, fin);
    SingleClick(SetButtonHandler(b, f), t, p, rl, fin);
  }

  /** With a debounce time of 0 the edge poll is silent and the next held
      poll confirms: an edge, one held poll, a release and a late released
      poll make a complete single click. */
  lemma ZeroDebounceClick(b: Button, t: Thresholds)
    requires Idle(b) && b.debounceMs == 0 && t.multiclickMs <= 420
    ensures var P := b.pressedLevel;
      var r := Run(b, [Sample(P, 5), Sample(P, 10), Sample(!P, 10), Sample(!P, 400)], t);
      r.calls == [Notice(Pressed, 1, b.timePressedMs), Notice(Released, 1, 20), Notice(ClickFinish, 1, 20)]
  {
    var P := b.pressedLevel;
    var p, rl, f := Press(5, [], 10, []), Release(10, []), Finish(400, []);
    SingleClickRun(b, t, p, rl, f);
    assert PressTrace(P, p) + ReleaseTrace(P, rl) + FinishTrace(P, f)
        == [Sample(P, 5), Sample(P, 10), Sample(!P, 10), Sample(!P, 400)];
  }

  /** A press released only after the multi-click time (counted from the press
      edge) still emits RELEASED on its release poll, and CLICK_FINISH follows
      on the very next released poll: no multi-click window is left. */
  lemma LateReleaseClick(b: Button)
    requires Idle(b) && b.debounceMs == Defaults.debounceMs
    ensures var P := b.pressedLevel;
      var p := Press(0, [40], 20, [100, 80]);
      var r := Run(b, PressTrace(P, p) + [Sample(!P, 70), Sample(!P, 1)], Defaults);
      r.calls == [Notice(Pressed, 1, b.timePressedMs), Notice(Released, 1, 310), Notice(ClickFinish, 1, 310)]
  {
    var P := b.pressedLevel;
    var p, rl, f := Press(0, [40], 20, [100, 80]), Release(70, []), Finish(1, []);
    DefaultThresholds();
    SingleClickRun(b, Defaults, p, rl, f);
    assert ReleaseTrace(P, rl) + FinishTrace(P, f) == [Sample(!P, 70), Sample(!P, 1)];
    assert PressTrace(P, p) + ReleaseTrace(P, rl) + FinishTrace(P, f)
        == PressTrace(P, p) + [Sample(!P, 70), Sample(!P, 1)];
  }

  /** A release edge before the press was confirmed. */
  lemma UnconfirmedReleaseStep(b: Button, dt: nat, t: Thresholds)
    requires IsPressed(b) && !b.pressedTriggered
    ensures Step(b, !b.pressedLevel, dt, t) == Polled(After(b, dt).(currLevel := !b.pressedLevel), [])
  {
  }

  /** A bounce, from any released state: a press that ends before the debounce
      time emits nothing, however long the line then stays released. It
      cancels a pending click (the confirmation flag is cleared) but keeps the
      click count. */
  lemma Bounce(b: Button, t: Thresholds, edgeDt: nat, settle: seq<nat>, rl: Release)
    requires !IsPressed(b) && SettlesBelow(settle, b.debounceMs)
    ensures var P := b.pressedLevel;
      var r := Run(b, [Sample(P, edgeDt)] + Hold(P, settle) + ReleaseTrace(P, rl), t);
      && r.calls == []
      && !IsPressed(r.next) && !r.next.pressedTriggered && !r.next.longclickDetected
      && r.next.clickCount == b.clickCount && r.next.timePressedMs == b.timePressedMs
  {
    var P := b.pressedLevel;
    var s1 := [Sample(P, edgeDt)] + Hold(P, settle);
    RunAppend(b, s1, ReleaseTrace(P, rl), t);
    SettlePhase(b, t, edgeDt, settle);
    var b1 := Run(b, s1, t).next;
    UnconfirmedReleaseStep(b1, rl.edgeDt, t);
    RunCons(b1, Sample(!P, rl.edgeDt), Hold(!P, rl.wait), t);
    var b2 := Step(b1, !P, rl.edgeDt, t).next;
    ReleasedUnconfirmedQuiet(b2, rl.wait, t);
    QuietHoldRun(b2, !P, rl.wait, t);
  }

  /** An idle button whose line never reaches the pressed level emits nothing
      and keeps reporting no clicks; with nothing to call, the run completes
      whether or not a callback is registered. */
  lemma IdleStaysIdle(b: Button, t: Thresholds, dts: seq<nat>)
    requires Idle(b)
    ensures Run(b, Hold(!b.pressedLevel, dts), t).calls == []
    ensures Idle(Run(b, Hold(!b.pressedLevel, dts), t).next)
    ensures NumberOfClicks(Run(b, Hold(!b.pressedLevel, dts), t).next) == 0
    ensures PollRun(b, Hold(!b.pressedLevel, dts), t) == Ok(Run(b, Hold(!b.pressedLevel, dts), t))
  {
    ReleasedUnconfirmedQuiet(b, dts, t);
    QuietHoldRun(b, !b.pressedLevel, dts, t);
    PollRunMatchesRun(b, Hold(!b.pressedLevel, dts), t);
  }

  /** The calls and the final fields of a bounce after a click, as `Run` records them. */
  lemma BounceSwallowsClickFinishRun(b: Button, t: Thresholds, p: Press, rl: Release,
                                  bounceDt: nat, settle: seq<nat>, after: Release)
    requires Idle(b) && ConfirmsAt(p, b.debounceMs) && ShortHold(p, t)
    requires WaitsInWindow(p, rl, t)
    requires SettlesBelow(settle, b.debounceMs)
    ensures var P := b.pressedLevel;
      var r := Run(b, PressTrace(P, p) + ReleaseTrace(P, rl)
                      + ([Sample(P, bounceDt)] + Hold(P, settle) + ReleaseTrace(P, after)), t);
      && r.calls == [Notice(Pressed, 1, b.timePressedMs), Notice(Released, 1, Duration(p) + rl.edgeDt)]
      && NumberOfClicks(r.next) == 1 && !r.next.pressedTriggered && !IsPressed(r.next)
  {
    var P := b.pressedLevel;
    var s1, s2 := PressTrace(P, p), ReleaseTrace(P, rl);
    var s3 := [Sample(P, bounceDt)] + Hold(P, settle) + ReleaseTrace(P, after);
    RunAppend(b, s1 + s2, s3, t);
    ClickPhase(b, t, p, rl);
    Bounce(Run(b, s1 + s2, t).next, t, bounceDt, settle, after);
  }

  /** A bounce inside the multi-click window swallows the CLICK_FINISH of the
      click before it: after PRESSED and RELEASED nothing more is emitted
      however long the line stays released, and one click stays pending.
      With a callback registered the run completes with exactly these calls;
      with none registered, the first of them is a call through NULL and the
      run faults. */
  lemma BounceSwallowsClickFinish(b: Button, t: Thresholds, p: Press, rl: Release,
                                  bounceDt: nat, settle: seq<nat>, after: Release)
    requires Idle(b) && ConfirmsAt(p, b.debounceMs) && ShortHold(p, t)
    requires WaitsInWindow(p, rl, t)
    requires SettlesBelow(settle, b.debounceMs)
    ensures var P := b.pressedLevel;
      var s := PressTrace(P, p) + ReleaseTrace(P, rl)
               + ([Sample(P, bounceDt)] + Hold(P, settle) + ReleaseTrace(P, after));
      var r := Run(b, s, t);
      && r.calls == [Notice(Pressed, 1, b.timePressedMs), Notice(Released, 1, Duration(p) + rl.edgeDt)]
      && NumberOfClicks(r.next) == 1 && !r.next.pressedTriggered && !IsPressed(r.next)
      && PollRun(b, s, t) == if b.callback.Some? then Ok(r) else Err(NullCallback)
  {
    var P := b.pressedLevel;
    BounceSwallowsClickFinishRun(b, t, p, rl, bounceDt, settle, after);
    PollRunMatchesRun(b, PressTrace(P, p) + ReleaseTrace(P, rl)
                      + ([Sample(P, bounceDt)] + Hold(P, settle) + ReleaseTrace(P, after)), t);
  }

  /** The calls and the final fields of a double click, as `Run` records them. */
  lemma DoubleClickRun(b: Button, t: Thresholds, p1: Press, rl1: Release, p2: Press, rl2: Release, f: Finish)
    requires Idle(b) && ConfirmsAt(p1, b.debounceMs) && ConfirmsAt(p2, b.debounceMs)
    requires ShortHold(p1, t)
    requires WaitsInWindow(p1, rl1, t) && WaitsInWindow(p2, rl2, t)
    requires t.multiclickMs <= Duration(p2) + rl2.edgeDt + Sum(rl2.wait) + f.dt
    ensures var P := b.pressedLevel;
      var r := Run(b, PressTrace(P, p1) + ReleaseTrace(P, rl1)
                      + (PressTrace(P, p2) + ReleaseTrace(P, rl2) + FinishTrace(P, f)), t);
      var held1, held2 := Duration(p1) + rl1.edgeDt, Duration(p2) + rl2.edgeDt;
      && r.calls == [Notice(Pressed, 1, b.timePressedMs), Notice(Released, 1, held1),
                     Notice(Pressed, 2, held1), Notice(Released, 2, held2),
                     Notice(ClickFinish, 2, held2)]
      && Idle(r.next)
  {
    var P := b.pressedLevel;
    var s1, s2 := PressTrace(P, p1) + ReleaseTrace(P, rl1), PressTrace(P, p2) + ReleaseTrace(P, rl2);
    var s3 := FinishTrace(P, f);
    RunAppend(b, s1, s2 + s3, t);
    ClickPhase(b, t, p1, rl1);
    var c := Run(b, s1, t).next;
    RunAppend(c, s2, s3, t);
    ClickPhase(c, t, p2, rl2);
    var d := Run(c, s2, t).next;
    assert Inv(d);
    FinishPhase(d, t, f);
  }

  /** A double click: the second press inside the multi-click window is
      confirmed as click 2 and is never promoted to a long click however long
      it is held; CLICK_FINISH then reports two clicks.
      With a callback registered the run completes with exactly these calls;
      with none registered, the first of them is a call through NULL and the
      run faults. */
  lemma DoubleClick(b: Button, t: Thresholds, p1: Press, rl1: Release, p2: Press, rl2: Release, f: Finish)
    requires Idle(b) && ConfirmsAt(p1, b.debounceMs) && ConfirmsAt(p2, b.debounceMs)
    requires ShortHold(p1, t)
    requires WaitsInWindow(p1, rl1, t) && WaitsInWindow(p2, rl2, t)
    requires t.multiclickMs <= Duration(p2) + rl2.edgeDt + Sum(rl2.wait) + f.dt
    ensures var P := b.pressedLevel;
      var s := PressTrace(P, p1) + ReleaseTrace(P, rl1)
               + (PressTrace(P, p2) + ReleaseTrace(P, rl2) + FinishTrace(P, f));
      var r := Run(b, s, t);
      var held1, held2 := Duration(p1) + rl1.edgeDt, Duration(p2) + rl2.edgeDt;
      && r.calls == [Notice(Pressed, 1, b.timePressedMs), Notice(Released, 1, held1),
                     Notice(Pressed, 2, held1), Notice(Released, 2, held2),
                     Notice(ClickFinish, 2, held2)]
      && Idle(r.next)
      && PollRun(b, s, t) == if b.callback.Some? then Ok(r) else Err(NullCallback)
  {
    var P := b.pressedLevel;
    DoubleClickRun(b, t, p1, rl1, p2, rl2, f);
    PollRunMatchesRun(b, PressTrace(P, p1) + ReleaseTrace(P, rl1)
                      + (PressTrace(P, p2) + ReleaseTrace(P, rl2) + FinishTrace(P, f)), t);
  }

  /** Every invocation in `calls` is a LONG_REPEAT. */
  predicate AllRepeats(calls: seq<Notice>)
  {
    forall i :: 0 <= i < |calls| ==> calls[i].event == LongRepeat
  }

  /** The poll that reaches the long-click time and the polls held after it:
      LONG_FIRST with the press duration, then only LONG_REPEAT. */
  lemma LongPhase(b: Button, t: Thresholds, longDt: nat, hold: seq<nat>)
    requires IsPressed(b) && b.pressedTriggered && b.clickCount == 1 && !b.longclickDetected
    requires b.sincePressed + longDt >= t.longclickMs
    ensures var r := Run(b, [Sample(b.pressedLevel, longDt)] + Hold(b.pressedLevel, hold), t);
      && |r.calls| >= 1 && r.calls[0] == Notice(LongFirst, 1, b.sincePressed + longDt)
      && AllRepeats(r.calls[1..])
      && (0 < t.longclickRepeatMs <= Sum(hold) ==> |r.calls| >= 2)
      && LongHeld(r.next) && SameConfig(b, r.next)
      && r.next.sincePressed == b.sincePressed + longDt + Sum(hold)
  {
    var P := b.pressedLevel;
    LongFirstStep(b, longDt, t);
    RunCons(b, Sample(P, longDt), Hold(P, hold), t);
    var b1 := Step(b, P, longDt, t).next;
    LongHoldRepeats(b1, hold, t);
    RepeatCadence(b1, hold, t);
    var r := Run(b, [Sample(P, longDt)] + Hold(P, hold), t);
    assert r.calls[1..] == Run(b1, Hold(P, hold), t).calls;
  }

  /** The release edge of a long click and the idle polls after it: LONG_FINISH
      with the whole press duration, and nothing after it. */
  lemma LongEndPhase(b: Button, t: Thresholds, f: Finish)
    requires LongHeld(b)
    ensures var r := Run(b, FinishTrace(b.pressedLevel, f), t);
      && r.calls == [Notice(LongFinish, 1, b.sincePressed + f.dt)]
      && Idle(r.next) && WasPressedFor(r.next) == b.sincePressed + f.dt
  {
    var P := b.pressedLevel;
    LongFinishStep(b, f.dt, t);
    RunCons(b, Sample(!P, f.dt), Hold(!P, f.idle), t);
    var b1 := Step(b, !P, f.dt, t).next;
    ReleasedUnconfirmedQuiet(b1, f.idle, t);
    QuietHoldRun(b1, !P, f.idle, t);
  }

  /** No invocation in `calls` is a RELEASED or a CLICK_FINISH. */
  predicate NoClickEvents(calls: seq<Notice>)
  {
    forall i :: 0 <= i < |calls| ==> calls[i].event !in {Released, ClickFinish}
  }

  /** From a confirmed first click: reaching the long-click time, holding, and
      releasing emit LONG_FIRST, only LONG_REPEATs (at least one once the hold
      after LONG_FIRST lasts the repeat time), and LONG_FINISH. */
  lemma LongTail(b: Button, t: Thresholds, longDt: nat, hold: seq<nat>, f: Finish)
    requires IsPressed(b) && b.pressedTriggered && b.clickCount == 1 && !b.longclickDetected
    requires b.sincePressed + longDt >= t.longclickMs
    ensures var P := b.pressedLevel;
      var r := Run(b, ([Sample(P, longDt)] + Hold(P, hold)) + FinishTrace(P, f), t);
      var n := |r.calls|;
      && n >= 2
      && r.calls[0] == Notice(LongFirst, 1, b.sincePressed + longDt)
      && AllRepeats(r.calls[1..n - 1])
      && r.calls[n - 1] == Notice(LongFinish, 1, b.sincePressed + longDt + Sum(hold) + f.dt)
      && (0 < t.longclickRepeatMs <= Sum(hold) ==> n >= 3)
      && NoClickEvents(r.calls)
      && Idle(r.next)
  {
    var P := b.pressedLevel;
    var s2, s3 := [Sample(P, longDt)] + Hold(P, hold), FinishTrace(P, f);
    RunAppend(b, s2, s3, t);
    LongPhase(b, t, longDt, hold);
    var r2 := Run(b, s2, t);
    LongEndPhase(r2.next, t, f);
    var r3 := Run(r2.next, s3, t);
    var calls := r2.calls + r3.calls;
    var n := |calls|;
    assert calls[1..n - 1] == r2.calls[1..];
    forall i | 0 <= i < n
      ensures calls[i].event !in {Released, ClickFinish}
    {
      if 1 <= i < n - 1 {
        assert calls[i] == calls[1..n - 1][i - 1];
      }
    }
  }

  /** The calls and the final fields of a long click, as `Run` records them. */
  lemma LongClickRun(b: Button, t: Thresholds, p: Press, longDt: nat, hold: seq<nat>, f: Finish)
    requires Idle(b) && ConfirmsAt(p, b.debounceMs)
    requires ShortHold(p, t) && t.longclickMs <= Duration(p) + longDt
    ensures var P := b.pressedLevel;
      var r := Run(b, PressTrace(P, p) + (([Sample(P, longDt)] + Hold(P, hold)) + FinishTrace(P, f)), t);
      var n := |r.calls|;
      && n >= 3
      && r.calls[0] == Notice(Pressed, 1, b.timePressedMs)
      && r.calls[1] == Notice(LongFirst, 1, Duration(p) + longDt)
      && AllRepeats(r.calls[2..n - 1])
      && r.calls[n - 1] == Notice(LongFinish, 1, Duration(p) + longDt + Sum(hold) + f.dt)
      && (0 < t.longclickRepeatMs <= Sum(hold) ==> n >= 4)
      && NoClickEvents(r.calls)
      && Idle(r.next)
  {
    var P := b.pressedLevel;
    var s1, s23 := PressTrace(P, p), ([Sample(P, longDt)] + Hold(P, hold)) + FinishTrace(P, f);
    RunAppend(b, s1, s23, t);
    PressPhase(b, t, p);
    var r1 := Run(b, s1, t);
    assert r1.next.sincePressed == Duration(p) && r1.next.clickCount == 1;
    LongTail(r1.next, t, longDt, hold, f);
    var r23 := Run(r1.next, s23, t);
    PressedThenLongTail(r1.calls[0], r23.calls);
  }

  /** A PRESSED put in front of a long-click tail keeps its shape. */
  lemma PressedThenLongTail(x: Notice, tail: seq<Notice>)
    requires x.event == Pressed && |tail| >= 2
    requires AllRepeats(tail[1..|tail| - 1]) && NoClickEvents(tail)
    ensures var c := [x] + tail;
      && c[0] == x && c[1] == tail[0] && c[|c| - 1] == tail[|tail| - 1]
      && AllRepeats(c[2..|c| - 1]) && NoClickEvents(c)
  {
    var c := [x] + tail;
    assert c[2..|c| - 1] == tail[1..|tail| - 1];
    forall i | 0 <= i < |c|
      ensures c[i].event !in {Released, ClickFinish}
    {
      if i >= 1 {
        assert c[i] == tail[i - 1];
      }
    }
  }

  /** A long click: PRESSED, LONG_FIRST, then only LONG_REPEAT (at least one
      once the hold after LONG_FIRST lasts the repeat time), then LONG_FINISH
      with the whole press duration. No RELEASED and no CLICK_FINISH appear
      anywhere, and the button ends idle.
      With a callback registered the run completes with exactly these calls;
      with none registered, the first of them is a call through NULL and the
      run faults. */
  lemma LongClick(b: Button, t: Thresholds, p: Press, longDt: nat, hold: seq<nat>, f: Finish)
    requires Idle(b) && ConfirmsAt(p, b.debounceMs)
    requires ShortHold(p, t) && t.longclickMs <= Duration(p) + longDt
    ensures var P := b.pressedLevel;
      var s := PressTrace(P, p) + (([Sample(P, longDt)] + Hold(P, hold)) + FinishTrace(P, f));
      var r := Run(b, s, t);
      var n := |r.calls|;
      && n >= 3
      && r.calls[0] == Notice(Pressed, 1, b.timePressedMs)
      && r.calls[1] == Notice(LongFirst, 1, Duration(p) + longDt)
      && AllRepeats(r.calls[2..n - 1])
      && r.calls[n - 1] == Notice(LongFinish, 1, Duration(p) + longDt + Sum(hold) + f.dt)
      && (0 < t.longclickRepeatMs <= Sum(hold) ==> n >= 4)
      && NoClickEvents(r.calls)
      && Idle(r.next)
      && PollRun(b, s, t) == if b.callback.Some? then Ok(r) else Err(NullCallback)
  {
    var P := b.pressedLevel;
    LongClickRun(b, t, p, longDt, hold, f);
    PollRunMatchesRun(b, PressTrace(P, p) + (([Sample(P, longDt)] + Hold(P, hold)) + FinishTrace(P, f)), t);
  }

  /** One held poll of a confirmed press: never PRESSED, and the press stays confirmed. */
  lemma HeldConfirmedStep(b: Button, dt: nat, t: Thresholds)
    requires IsPressed(b) && b.pressedTriggered
    ensures Emitted(Step(b, b.pressedLevel, dt, t)) != Some(Pressed)
    ensures |Step(b, b.pressedLevel, dt, t).calls| <= 1
    ensures IsPressed(Step(b, b.pressedLevel, dt, t).next)
    ensures Step(b, b.pressedLevel, dt, t).next.pressedTriggered
  {
  }

  /** PRESSED fires at most once per press episode: once a press is confirmed,
      holding it never emits PRESSED again. */
  lemma {:induction false} PressedOncePerEpisode(b: Button, dts: seq<nat>, t: Thresholds)
    requires IsPressed(b) && b.pressedTriggered
    ensures forall i :: 0 <= i < |Run(b, Hold(b.pressedLevel, dts), t).calls| ==>
              Run(b, Hold(b.pressedLevel, dts), t).calls[i].event != Pressed
    ensures IsPressed(Run(b, Hold(b.pressedLevel, dts), t).next)
    ensures Run(b, Hold(b.pressedLevel, dts), t).next.pressedTriggered
    decreases |dts|
  {
    if dts != [] {
      var P := b.pressedLevel;
      HeldConfirmedStep(b, dts[0], t);
      var p := Step(b, P, dts[0], t);
      RunCons(b, Sample(P, dts[0]), Hold(P, dts[1..]), t);
      PressedOncePerEpisode(p.next, dts[1..], t);
      var rest := Run(p.next, Hold(P, dts[1..]), t);
      forall i | 0 <= i < |p.calls + rest.calls|
        ensures (p.calls + rest.calls)[i].event != Pressed
      {
        if i >= |p.calls| {
          assert (p.calls + rest.calls)[i] == rest.calls[i - |p.calls|];
        }
      }
    }
  }

  // ----- Whole runs -----

  /** The invariant holds after any sequence of polls. */
  lemma {:induction false} RunPreservesInv(b: Button, samples: seq<Sample>, t: Thresholds)
    requires Inv(b)
    ensures Inv(Run(b, samples, t).next)
    ensures LongclickConsistent(Run(b, samples, t).next)
    decreases |samples|
  {
    if samples != [] {
      var x := samples[0];
      assert samples == [x] + samples[1..];
      RunCons(b, x, samples[1..], t);
      RunPreservesInv(Step(b, x.level, x.dt, t).next, samples[1..], t);
    }
  }

  /** No poll invokes the callback more than once. */
  lemma {:induction false} AtMostOneCallPerPoll(b: Button, samples: seq<Sample>, t: Thresholds)
    ensures |Run(b, samples, t).calls| <= |samples|
    decreases |samples|
  {
    if samples != [] {
      var x := samples[0];
      assert samples == [x] + samples[1..];
      RunCons(b, x, samples[1..], t);
      AtMostOneCallPerPoll(Step(b, x.level, x.dt, t).next, samples[1..], t);
    }
  }

  /** Everything a program can do to a button after constructing it. */
  datatype Op =
    | PollOp(level: Level, dt: nat)
    | ResetOp
    | SetDebounceOp(ms: byte)
    | SetHandlerOp(f: Option<Callback>)

  function Apply(b: Button, op: Op, t: Thresholds): Button
  {
    match op
    case PollOp(level, dt) => Step(b, level, dt, t).next
    case ResetOp => Reset(b)
    case SetDebounceOp(ms) => SetDebounceTime(b, ms)
    case SetHandlerOp(f) => SetButtonHandler(b, f)
  }

  function ApplyAll(b: Button, ops: seq<Op>, t: Thresholds): Button
    decreases |ops|
  {
    if ops == [] then b else ApplyAll(Apply(b, ops[0], t), ops[1..], t)
  }

  /** Whatever a program does after construction, a detected long click always
      belongs to a confirmed first click. */
  lemma {:induction false} LongclickAlwaysConsistent(pin: byte, mode: PinMode, activeLow: bool,
                                                     debounceMs: byte, ops: seq<Op>, t: Thresholds)
    ensures LongclickConsistent(ApplyAll(Construct(pin, mode, activeLow, debounceMs).button, ops, t))
  {
    InvConstructed(pin, mode, activeLow, debounceMs);
    ApplyAllPreservesInv(Construct(pin, mode, activeLow, debounceMs).button, ops, t);
  }

  lemma {:induction false} ApplyAllPreservesInv(b: Button, ops: seq<Op>, t: Thresholds)
    requires Inv(b)
    ensures Inv(ApplyAll(b, ops, t))
    decreases |ops|
  {
    if ops != [] {
      var b1 := Apply(b, ops[0], t);
      InvAfterReset(b);
      assert Inv(b1);
      ApplyAllPreservesInv(b1, ops[1..], t);
    }
  }
}

=== FILE: wrappers.dfy ===
/** Failure-compatible wrappers used by the button model. */
module Wrappers {

  /** An optional value: the absent case stands for a C NULL or an undefined code. */
  datatype Option<+T> = None | Some(value: T) {

    /** The wrapped value, or `default` when there is none. */
    function GetOr(default: T): (r: T)
      ensures Some? ==> r == value
      ensures None? ==> r == default
    {
      match this
      case Some(v) => v
      case None => default
    }
  }

  /** Either a value or an error. */
  datatype Result<+R, +E> = Ok(value: R) | Err(error: E)
}
